=== FILE: README.md ===
# GPU-scene bookkeeping structures in Dafny

A Dafny model of four CPU-side bookkeeping structures from the
real-time seamless object-space shading renderer, with proofs about each:

- **`GPUScene.BitArray`** (`bit_array.dfy`, module `Bits`): a growable bit
  vector stored in 32-bit words. It has indexer get and set, single and bulk
  append, and the forward `Visitor` scan.
- **`GPUScene.SparseArray<T>`** (`sparse_array.dfy`, module `Sparse`): a slot
  table. It holds a dense value list, a liveness `BitArray`, and a LIFO free
  list that `Add` pops from the back.
- **`GPUScene.RectAllocator`**: the quad-tree square packer over a
  `DimInTiles x DimInTiles` tile domain. Its whole tree is one flat bitset
  with per-level offsets. The model is split into three modules:
  - `quad_tree.dfy` (module `QuadTree`) holds the tree arithmetic: level
    offsets, the flat index of a quad, ancestors, the Morton de-interleave
    of `ReverseMortonCode2`, and the tile geometry.
  - `quad_marks.dfy` (module `QuadMarks`) holds the bitset loops of `Alloc`
    and `Free`.
  - `rect_allocator.dfy` (module `RectAlloc`) holds the allocator state and
    its invariant, the constructor, `Alloc`, `Free` and `GetSizePosition`.
- **`HandlePool`** (`handle_pool.dfy`, module `Handles`): a fixed-capacity
  pool of `(index, generation)` handles. It has a LIFO free stack,
  per-slot generation counters that `Free` bumps, and a sorted list of
  allocated indices.

State is immutable: every operation returns the new state. The allocator's
invariant (`RectAlloc.Inv`) is the source's bitset comment "0: Free,
1: Allocated" made exact: a quad's bit is set exactly when some live
allocation is that quad, lies inside it, or contains it. Two consequences
are proved from it:
- the rectangles of live allocations do not overlap;
- allocating and then freeing gives back the same bitset.

The pool's invariant (`Handles.Inv`) states three things:
- the free stack and the allocated list split the slots between them;
- the allocated list is strictly ascending;
- `count` is the allocated list's length.

Integers are unbounded. The source's 32-bit behaviour is written out where
it decides an outcome:
- the wrapping sum in `DivideRoundUp`;
- the `uint` wrap of the level computation, which the model reports as
  `Throws`;
- the 32-bit loop bound `count + numBits` of the bulk append, which turns
  an append past `2^32 - 1` bits into a no-op;
- the `int` generation counter, which wraps at `2^31 - 1`.

## Model

| member | source | states |
|---|---|---|
| Bits.FromBits | Packages/com.tencent.tmgp.gpu-scene/Runtime/BitArray.cs:90-134 | appending a list of bits one at a time with `Add(bool)` gives a valid array of that length, and the indexer getter reads every bit of the list back |
| Bits.Set | Packages/com.tencent.tmgp.gpu-scene/Runtime/BitArray.cs:124-141 | the indexer setter needs only the word index in range (not `index < count`); afterwards the addressed bit reads the new value and every other bit, the count and the word count are unchanged |
| Bits.Add | Packages/com.tencent.tmgp.gpu-scene/Runtime/BitArray.cs:90-105 | `Add(v)` returns the old count, raises the count by exactly one, keeps storage at `ceil(count / 32)` words, reads the new bit back as `v`, and leaves every earlier bit alone |
| Bits.Grow | Packages/com.tencent.tmgp.gpu-scene/Runtime/BitArray.cs:92-100 | the count goes up by one, storage stays at `ceil(count / 32)` words (a word is appended exactly when the existing ones are full), every existing bit is kept, and an appended word is all zero padding |
| Bits.Fill | Packages/com.tencent.tmgp.gpu-scene/Runtime/BitArray.cs:107-122 | the bulk-append loop reaches the target count with storage at `ceil(count / 32)` words; old bits are kept; a new bit in a whole word appended by the fast path reads that word's bit, and any other new bit reads `v` |
| Bits.AddRun | Packages/com.tencent.tmgp.gpu-scene/Runtime/BitArray.cs:107-122 | `Add(v, n)` as written raises the count by `n` and keeps old bits, unless `count + n` passes `2^32 - 1`: then the 32-bit loop bound wraps below the count and the array is returned unchanged. For `false`, every appended bit reads `false`. For `true`, an appended bit reads `true` exactly when it is outside the whole words of the fast path or is bit 0 of such a word |
| Bits.AddRunTrueDropsBits | Packages/com.tencent.tmgp.gpu-scene/Runtime/BitArray.cs:112-115 | appending 32 `true` bits to an empty array reads bit 1 back as `false` |
| Bits.AddRunFilled | Packages/com.tencent.tmgp.gpu-scene/Runtime/BitArray.cs:107-122 | the bulk append with the fast path writing a word of copies of `v`: the count rises by `n` (with the same wrapped bound as the source), old bits are kept, and every appended bit reads `v` |
| Bits.AddRunFalseAgrees | Packages/com.tencent.tmgp.gpu-scene/Runtime/BitArray.cs:112-115 | for `false`, the bulk append as written and the corrected one produce the same array |
| Bits.MoveNext | Packages/com.tencent.tmgp.gpu-scene/Runtime/BitArray.cs:39-78 | the first call throws exactly when no storage word holds the start position, with `initialized` already set. Otherwise the visitor is sound: a reported position is below the count and holds the target value; the position never moves back, and after the first call a reported position is strictly further on. On the first call, a start bit equal to the target is reported at once when it is below the count |
| Bits.FirstMove | Packages/com.tencent.tmgp.gpu-scene/Runtime/BitArray.cs:22-84 | the first `MoveNext` of a visitor from `MakeVisitor` throws exactly on an empty array; otherwise, when bit 0 holds the target, it reports position 0 |
| Sparse.Add | Packages/com.tencent.tmgp.gpu-scene/Runtime/SparseArray.cs:11-40 | with a non-empty free list, the handle is the most recently freed slot and the list loses its last entry; otherwise the handle is the old flag count and both flags and data grow by one. The handle's slot becomes live and holds the value; every other slot keeps its liveness and value; the table's invariant is kept |
| Sparse.Free | Packages/com.tencent.tmgp.gpu-scene/Runtime/SparseArray.cs:42-46 | clears the slot's liveness flag and appends the slot to the free list, leaving data, the flag count and every other slot's liveness alone; the invariant is kept when the slot was live |
| Sparse.GetDataAfter | Packages/com.tencent.tmgp.gpu-scene/Runtime/SparseArray.cs:11-51 | after `Add`, `GetData` of the returned handle reads the new value and every other slot reads as before; after `Free`, every slot, the freed one included, reads as before |
| Sparse.FreeThenAddReuses | Packages/com.tencent.tmgp.gpu-scene/Runtime/SparseArray.cs:11-51 | freeing a live slot and then adding hands back the same slot, and reading it gives the new value (LIFO reuse) |
| Sparse.DoubleFreeBreaksValid | Packages/com.tencent.tmgp.gpu-scene/Runtime/SparseArray.cs:42-46 | with no liveness check, freeing a slot twice puts it on the free list twice, breaking the invariant |
| QuadTree.NodeAtSpec | Packages/com.tencent.tmgp.gpu-scene/Runtime/RectAllocator.cs:24-30 | with level `L` starting at bit `sum_{k<L} 4^k`, every bit of the tree's bitset belongs to exactly one quad of the tree |
| QuadTree.FlatInjective | Packages/com.tencent.tmgp.gpu-scene/Runtime/RectAllocator.cs:24-30 | distinct quads own distinct bits |
| QuadTree.ReverseMortonCode2 | Packages/com.tencent.tmgp.gpu-scene/Runtime/RectAllocator.cs:43-51 | the decode of a 32-bit index is a 16-bit coordinate |
| QuadTree.MortonRoundTrip | Packages/com.tencent.tmgp.gpu-scene/Runtime/RectAllocator.cs:43-51 | decoding an index into its column and row (`ReverseMortonCode2(i)`, `ReverseMortonCode2(i >> 1)`) loses nothing: interleaving the two gives the index back |
| QuadTree.MortonDecodeInterleave | Packages/com.tencent.tmgp.gpu-scene/Runtime/RectAllocator.cs:43-51 | the other direction: any 16-bit column and row are what the decode returns for their interleaved index |
| QuadTree.ReverseMortonStep | Packages/com.tencent.tmgp.gpu-scene/Runtime/RectAllocator.cs:43-51 | the 32-bit `ReverseMortonCode2` satisfies the even-bit recurrence: its low bit is bit 0 of the input and the rest is the decode of the input shifted right by two |
| QuadTree.ChildCoords | Packages/com.tencent.tmgp.gpu-scene/Runtime/RectAllocator.cs:101-102 | a child's column and row are twice its parent's plus its position in the 2 x 2 block (Z order) |
| QuadTree.CoordsBound | Packages/com.tencent.tmgp.gpu-scene/Runtime/RectAllocator.cs:101-102 | the column and row decoded from an index of level `L` are below `2^L` |
| QuadTree.CoordsInjective | Packages/com.tencent.tmgp.gpu-scene/Runtime/RectAllocator.cs:101-102 | distinct indices decode to distinct (column, row) pairs |
| QuadTree.QuadSidePow | Packages/com.tencent.tmgp.gpu-scene/Runtime/RectAllocator.cs:103 | `DimInTiles >> Level` is `2^(top - Level)` for a domain of `2^top` tiles |
| QuadTree.InDomain | Packages/com.tencent.tmgp.gpu-scene/Runtime/RectAllocator.cs:101-105 | a quad's first tile plus its width stays inside the tile domain, in both axes |
| QuadTree.WithinAncestor | Packages/com.tencent.tmgp.gpu-scene/Runtime/RectAllocator.cs:101-105 | a quad's tiles lie inside the tiles of each of its ancestors |
| QuadTree.UnrelatedApart | Packages/com.tencent.tmgp.gpu-scene/Runtime/RectAllocator.cs:101-105 | two quads neither of which contains the other have tile squares that are disjoint in at least one axis |
| QuadMarks.FirstClear | Packages/com.tencent.tmgp.gpu-scene/Runtime/RectAllocator.cs:60-67 | the scan stops at the lowest clear bit of the range, every bit before it is set, and it reaches the end only if no bit is clear |
| QuadMarks.FirstFit | Packages/com.tencent.tmgp.gpu-scene/Runtime/RectAllocator.cs:56-69 | first fit in a level: a found quad is unmarked and every quad of lower Morton index in the level is marked; nothing is found exactly when every quad of the level is marked |
| QuadMarks.MarkAncestors | Packages/com.tencent.tmgp.gpu-scene/Runtime/RectAllocator.cs:73-85 | sets the bits of the quad and of its ancestors finer than a reported level `stop`, and no other bit; the ancestor at `stop`, if any, was already marked, which is where the source's upward loop breaks |
| QuadMarks.SetRun | Packages/com.tencent.tmgp.gpu-scene/Runtime/RectAllocator.cs:92-96 | writes the given run of quads of one level and no other bit |
| QuadMarks.SetSubtree | Packages/com.tencent.tmgp.gpu-scene/Runtime/RectAllocator.cs:87-99 | writes exactly the quads of the subtree at and below the starting level (the source's descendant loop, and with `v = false` the subtree loop of `Free`), leaving every other bit alone |
| QuadMarks.ChildrenClearAt | Packages/com.tencent.tmgp.gpu-scene/Runtime/RectAllocator.cs:146-147 | the four bits `Free` reads from `TestIdx` are the bits of the parent's four children, so its condition means "every child clear" |
| QuadMarks.ClearEmptyParents | Packages/com.tencent.tmgp.gpu-scene/Runtime/RectAllocator.cs:142-156 | clears each ancestor of the freed quad from the bottom up while its four children read clear, stopping at the first with a set child, and clears no other bit |
| RectAlloc.DivideRoundUp | Packages/com.tencent.tmgp.gpu-scene/Runtime/RectAllocator.cs:38-41 | the ceiling of the quotient when the 32-bit sum does not wrap, and 0 when it does |
| RectAlloc.CeilLog2 | Packages/com.tencent.tmgp.gpu-scene/Runtime/RectAllocator.cs:55 | the least `k` with `2^k >= x`, and 32 for 0 |
| RectAlloc.LevelFor | Packages/com.tencent.tmgp.gpu-scene/Runtime/RectAllocator.cs:53-56 | the level is valid exactly when the request spans between 1 tile and the whole domain. It is then the finest level whose quads are at least that wide, and the next finer level's quads are too narrow. Otherwise the unsigned level wraps and indexes out of range |
| RectAlloc.RequestLevel | Packages/com.tencent.tmgp.gpu-scene/Runtime/RectAllocator.cs:53-58 | the level is below the number of levels. It is non-negative exactly when the tile size is positive, `max(sizeX, sizeY) + tileSize - 1` does not wrap in 32 bits, and the request is between 1 texel and `DimInTiles` tiles wide; otherwise the source throws. A level other than the finest is chosen only when the next finer level's quads are narrower than the request |
| RectAlloc.RequestFits | Packages/com.tencent.tmgp.gpu-scene/Runtime/RectAllocator.cs:53-58 | a request sent to its level fits within the quad's tiles in both axes |
| RectAlloc.LevelOffsets | Packages/com.tencent.tmgp.gpu-scene/Runtime/RectAllocator.cs:24-30 | the constructor loop gives one level per power of two up to `DimInTiles`, each level's offset being the number of quads in all coarser levels, and the total bit count |
| RectAlloc.LevelsFit | Packages/com.tencent.tmgp.gpu-scene/Runtime/RectAllocator.cs:24-33 | a domain of at most `2^15` tiles per side has at most 16 levels, and its bit count fits the 32-bit count |
| RectAlloc.New | Packages/com.tencent.tmgp.gpu-scene/Runtime/RectAllocator.cs:11-34 | the level offsets are `sum_{k<L} 4^k`, the bitset has one clear bit per quad, the slot table is empty, and the invariant holds |
| RectAlloc.MarkedOccupied | Packages/com.tencent.tmgp.gpu-scene/Runtime/RectAllocator.cs:185-186 | under the invariant, a quad's bit is set exactly when a live allocation is that quad, lies in it or contains it |
| RectAlloc.MarkedAbove | Packages/com.tencent.tmgp.gpu-scene/Runtime/RectAllocator.cs:75-82 | above an unmarked quad, once one ancestor is marked every coarser ancestor is too, which justifies the early exit of the ancestor loop |
| RectAlloc.AllocMarker | Packages/com.tencent.tmgp.gpu-scene/Runtime/RectAllocator.cs:73-99 | the two marking loops of `Alloc` at an unmarked quad set exactly the bits of the quads nested with it |
| RectAlloc.AddKeepsInv | Packages/com.tencent.tmgp.gpu-scene/Runtime/RectAllocator.cs:60-113 | recording an allocation at a free quad, with the bitset marked around it, keeps the invariant |
| RectAlloc.Alloc | Packages/com.tencent.tmgp.gpu-scene/Runtime/RectAllocator.cs:36-117 | see the list below the table |
| RectAlloc.LiveMarksAncestors | Packages/com.tencent.tmgp.gpu-scene/Runtime/RectAllocator.cs:142-156 | while an allocation is live every quad on its path to the root is marked, so freeing a sibling never clears a parent of a live allocation |
| RectAlloc.UnmarkQuad | Packages/com.tencent.tmgp.gpu-scene/Runtime/RectAllocator.cs:127-156 | the two clearing loops of `Free` clear the quad and its whole subtree, then its ancestors from the bottom up while their four children read clear; the first ancestor kept has a set child, and no other bit changes |
| RectAlloc.FreeKeepsInv | Packages/com.tencent.tmgp.gpu-scene/Runtime/RectAllocator.cs:119-157 | freeing a live allocation with `Free`'s bit changes keeps the invariant |
| RectAlloc.Free | Packages/com.tencent.tmgp.gpu-scene/Runtime/RectAllocator.cs:119-157 | see the list below the table |
| RectAlloc.AllocThenFree | Packages/com.tencent.tmgp.gpu-scene/Runtime/RectAllocator.cs:36-157 | freeing what `Alloc` just placed restores the bitset exactly and the same set of live handles |
| RectAlloc.SameLiveSameMarks | Packages/com.tencent.tmgp.gpu-scene/Runtime/RectAllocator.cs:119-157 | two valid allocators over the same tree with the same live records have the same bitset: the bitset is determined by the live allocations |
| RectAlloc.GetSizePosition | Packages/com.tencent.tmgp.gpu-scene/Runtime/RectAllocator.cs:159-168 | the lookup fails exactly for a handle beyond the slot table (the source's read throws); any other handle, live or freed, yields a rectangle. Under the invariant its position is `TileX * TileSizeWithBorder + BorderSize` and the same for `y`, for the quad the record names |
| RectAlloc.AllocThenGet | Packages/com.tencent.tmgp.gpu-scene/Runtime/RectAllocator.cs:36-168 | looking up the handle a successful `Alloc` returns gives the requested size, at one border's width inside the first free quad of the request's level: `(SizeX, SizeY, TileX * TileSizeWithBorder + BorderSize, TileY * TileSizeWithBorder + BorderSize)` |
| RectAlloc.RectInQuad | Packages/com.tencent.tmgp.gpu-scene/Runtime/RectAllocator.cs:101-111 | a stored rectangle lies one border inside its quad's texel square: its position is the quad's first texel plus the border, and position, size and border fit within the quad |
| RectAlloc.RectInDomain | Packages/com.tencent.tmgp.gpu-scene/Runtime/RectAllocator.cs:101-111 | a stored rectangle, with its border on both sides, lies inside the `DimInTexels` square |
| RectAlloc.LiveRectsDisjoint | Packages/com.tencent.tmgp.gpu-scene/Runtime/RectAllocator.cs:60-111 | the rectangles of two distinct live allocations, each with its border, are separated in at least one axis |
| Handles.Inc32 | ObjectSpaceShading/Assets/Scripts/HandlePool.cs:76 | `generations[i]++` on a C# `int`: one more, except that the largest value wraps to the smallest; never the same value |
| Handles.Sort | ObjectSpaceShading/Assets/Scripts/HandlePool.cs:90 | `List.Sort`: a sorted list with the same elements, counted with multiplicity |
| Handles.SortAppend | ObjectSpaceShading/Assets/Scripts/HandlePool.cs:60-90 | appending one index to a sorted list and sorting is inserting it in order |
| Handles.InsertAscending | ObjectSpaceShading/Assets/Scripts/HandlePool.cs:60-90 | inserting an index not yet present keeps the list strictly ascending |
| Handles.RemoveFirst | ObjectSpaceShading/Assets/Scripts/HandlePool.cs:80 | `List.Remove`: a present element loses exactly one copy (one element shorter, one copy fewer in the bag); an absent element leaves the list unchanged |
| Handles.RemoveFirstSplit | ObjectSpaceShading/Assets/Scripts/HandlePool.cs:80 | the copy `List.Remove` drops is the first occurrence: when `k` is the first index holding `x`, the result is the list with index `k` cut out and every other element in its original order |
| Handles.RemoveAscending | ObjectSpaceShading/Assets/Scripts/HandlePool.cs:80 | removal from a strictly ascending list keeps it strictly ascending and removes exactly that element |
| Handles.New | ObjectSpaceShading/Assets/Scripts/HandlePool.cs:31-43 | the free stack is `[capacity - 1, ..., 0]`, every generation is 0, nothing is allocated, and the invariant holds |
| Handles.Allocate | ObjectSpaceShading/Assets/Scripts/HandlePool.cs:50-65 | pops the top free slot and pairs it with that slot's current generation, so the handle is valid. The count rises by one, generations are unchanged, and the allocated list is sorted with the new index added |
| Handles.AllocateKeepsInv | ObjectSpaceShading/Assets/Scripts/HandlePool.cs:50-93 | on a valid pool, the slot handed out was not allocated, is allocated afterwards, the allocated list stays strictly ascending, and the invariant holds |
| Handles.PopKeepsSlots | ObjectSpaceShading/Assets/Scripts/HandlePool.cs:55-60 | moving the top free slot to the allocated list keeps the free and allocated slots a partition of the slot range |
| Handles.PushKeepsSlots | ObjectSpaceShading/Assets/Scripts/HandlePool.cs:78-80 | moving an allocated slot back onto the free stack keeps the partition |
| Handles.Free | ObjectSpaceShading/Assets/Scripts/HandlePool.cs:67-81 | a handle failing `IsValid` changes nothing. A valid handle has its slot's generation bumped, other generations untouched, the slot pushed on the free stack, the count lowered by one, and the allocated list replaced by `List.Remove`'s result (`RemoveFirst`): one occurrence of the index removed when present, the list unchanged when absent. Either way the handle is invalid afterwards |
| Handles.FreeKeepsInv | ObjectSpaceShading/Assets/Scripts/HandlePool.cs:67-81 | freeing an issued handle keeps the invariant and takes exactly its slot out of the allocated list |
| Handles.InvalidNeverValid | ObjectSpaceShading/Assets/Scripts/HandlePool.cs:11-17 | `Handle.Invalid()` never passes `IsValid` |
| Handles.ValidityAfter | ObjectSpaceShading/Assets/Scripts/HandlePool.cs:50-98 | which handles `IsValid` accepts afterwards. After `Allocate`, the same ones. After `Free` of a valid handle, every handle to another slot as before, none to the freed slot except the one with the bumped generation; after `Free` of an invalid handle, the same ones |
| Handles.OtherHandlesUnaffected | ObjectSpaceShading/Assets/Scripts/HandlePool.cs:50-98 | `Free` of one handle, and `Allocate` on a pool with a free slot, leave the validity of every handle to a different slot as it was |
| Handles.FreeThenAllocate | ObjectSpaceShading/Assets/Scripts/HandlePool.cs:50-81 | after freeing a valid handle, the next `Allocate` returns the same index with the next generation, and the freed handle stays invalid |
| Handles.ForgedHandleBreaksInv | ObjectSpaceShading/Assets/Scripts/HandlePool.cs:67-98 | `IsValid` accepts the forged handle `(0, 0)` on a fresh pool, and freeing it breaks the invariant (slot 0 ends up on the free stack twice) |
| Handles.FreshPoolInOrder | ObjectSpaceShading/Assets/Scripts/HandlePool.cs:31-58 | from a fresh pool's stack `[capacity - 1, ..., k]`, `Allocate` returns `(k, 0)` and leaves `[capacity - 1, ..., k + 1]`, so successive allocations yield slots 0, 1, 2, ... at generation 0 |
| Handles.StaleHandleScenario | ObjectSpaceShading/Assets/Scripts/HandlePool.cs:50-98 | on a pool of four, allocate gives `(0, 0)`, free, allocate again gives `(0, 1)`; the old handle is stale and the new one valid |

`RectAlloc.Alloc`'s contract states:
- the invariant is kept;
- it reports `Throws` exactly when the request has no level;
- it reports `INDEX_NONE` only when every quad of the level is marked, and then changes nothing;
- on success, the new handle is the slot the slot table reuses or appends;
- the record's quad is the first unmarked quad of the request's level in Morton order;
- the record holds the requested size and the quad's texel position;
- the bitset gains exactly the bits of the quads nested with that quad, so the quad, its ancestors and its descendants all read marked.

`RectAlloc.Free`'s contract states:
- a handle beyond the slot table is rejected, as the source's read throws;
- otherwise the slot is freed and the quad and its whole subtree are cleared;
- ancestors are cleared from the bottom up while their four children read clear, stopping at the first with a set child;
- no other bit changes;
- freeing a live handle keeps the invariant.

## Left out

- Floating point: `TexelSize`, the `float4` `UVScaleBias`, `GetScaleBias`
  and the float-to-`uint` truncation in `GetSizePosition` are not modelled.
  Rectangles are kept as the exact integer texel sizes and positions that
  the floats approximate.
- RectAlloc.GetSizePosition: products such as `TileX * TileSizeWithBorder`
  and `DimInTiles * TileSizeWithBorder` are exact here. In the source they
  are 32-bit and could wrap for domains wider than `2^32` texels.
- RectAlloc.New: requires `dimInTiles` to be a power of two no larger than
  `2^15`.
  - With any other width, the levels the constructor builds do not tile the
    domain.
  - At `2^31` or more, its `uint` loop counter wraps and the loop never ends.
  - Above `2^15`, the bit count overflows the bitset's 32-bit count.
- RectAlloc.Alloc: requires the slot table's flag count below `2^32 - 1`.
  This keeps a fresh handle inside the 32-bit index space.
- RectAlloc.Alloc: uses the arithmetic de-interleave `QuadX`/`QuadY`.
  - The 32-bit `ReverseMortonCode2` is modelled separately, with its
    inverse (`QuadTree.MortonRoundTrip`).
  - The two are connected only by the shared recurrence
    (`QuadTree.ReverseMortonStep` and `QuadTree.ChildCoords`).
  - There is no proof that the bit-vector and integer versions agree value
    for value.
- RectAlloc.CeilLog2: `math.ceillog2` comes from Unity.Mathematics, which
  is not part of this model. It is defined by its documented meaning: the
  least `k` with `2^k >= x`, and 32 for 0.
- RectAlloc.Free: freeing a slot that is not live changes the bits the
  same way as the source does. The invariant is proved only for freeing a
  live handle, because the source has no liveness check.
- Bits.MoveNext: soundness only. The scan is not claimed to find every
  matching bit. After a whole-word skip it steps past the next word's
  first bit. It stops early once `dst >= count - 1`. It skips whole words
  only when they equal `0u` or `1u`.
- Bits.MoveNext: requires the count to be at most `2^32 - 32`. This keeps
  the source's `dataIndex * 32 + 32` from wrapping.
- Bits.Add: requires the count below `2^32 - 1`. At `2^32 - 1` the source
  writes the bit and its `count++` wraps to 0. The array's count then no
  longer matches its storage, which `Bits.Valid` cannot describe.
- Sparse.Add: requires (`Sparse.CanAdd`) a flag count below `2^32 - 1`
  when no slot is free, for the same reason as `Bits.Add`.
- Sparse.Free: requires the handle's flag word to exist. For any other
  handle the source's bit setter indexes past its word list and throws.
  That throw is modelled one level up, as `RectAlloc.Free` reporting
  `ok == false` for a handle beyond the slot table.
- Sparse.GetData: requires the handle to be below the data length. For any
  other handle the source's list read throws. That throw is modelled one
  level up, as `RectAlloc.GetSizePosition` returning `OutOfRange`.
- Handles.Allocate: requires a non-empty free stack. The source has no
  exhaustion guard: it increments `count` and then indexes past the end of
  the free list, which throws. Its second requires, that the top slot is
  below `|generations|`, is no restriction: `AllocateKeepsInv` derives it
  from `Inv` for every reachable pool.
- Handles.Free: requires the handle's index to be `-1` or a slot. The
  source's `IsValid` reads `generations[index]`, which throws for any other
  index. `Handles.IsValid` has the same precondition.
- Handles.New: the capacity is a natural number no larger than
  `2^31 - 1`. A negative capacity makes the source's list constructors
  throw.
- Handles.Inc32: generations grow until a slot's `2^31`-th free, when the
  `int` counter wraps from `2^31 - 1` to `-2^31`. After `2^32` frees the
  generation repeats, and an old handle to the slot can become valid again.
- The GPU side of `HandlePool` is not modelled: the `ComputeBuffer`
  creation and the `SetData` upload in `UpdateBuffer`, `indexBuffer` and
  `Release`. Only the sort of the allocated list is kept.
- The allocators' callers (atlas, mesh-card pool and renderer data) and
  the rest of the renderer are not part of this model.

## Findings

| source | as written | input that shows it | evidently intended | confidence | as-written member | corrected member |
|---|---|---|---|---|---|---|
| Packages/com.tencent.tmgp.gpu-scene/Runtime/BitArray.cs:112-115 | the whole-word fast path of `Add(bool, uint)` appends `bitValue ? 1u : 0u`, so for `true` only bit 0 of each appended word is set | `Add(true, 32)` on an empty array: bit 1 then reads `false` | append `~0u` for `true`, so every appended bit reads `true` | not executed | Bits.AddRun, Bits.AddRunTrueDropsBits | Bits.AddRunFilled |

The allocator's constructor builds its bitset with the corrected bulk
append (`Bits.AddRunFilled`). The constructor only appends `false` bits,
and for those the two versions agree (`Bits.AddRunFalseAgrees`).

=== FILE: bit_array.dfy ===
/** A growable bit vector stored in 32-bit words (GPUScene.BitArray).

    Bit `i` lives in word `i / 32` at position `i % 32`. A 32-bit word is
    modelled as a sequence of exactly 32 booleans, element `k` being the bit
    that `1u << k` selects; the word constants `0u`, `1u` and `~0u` are
    `Zero`, `One` and `Ones`.
 */
module Bits {

  /** The largest value of the source's 32-bit `count`. */
  const MaxCount: nat := 0xFFFF_FFFF

  type Word = w: seq<bool> | |w| == 32 witness seq(32, _ => false)

  /** The word whose 32 bits all equal `v`. */
  function Uniform(v: bool): Word {
    seq(32, _ => v)
  }

  /** `0u` */
  const Zero: Word := Uniform(false)
  /** `1u`: only bit 0 is set */
  const One: Word := Zero[0 := true]
  /** `~0u`: every bit is set */
  const Ones: Word := Uniform(true)

  datatype BitArray = BitArray(words: seq<Word>, count: nat)

  const Empty: BitArray := BitArray([], 0)

  /** Number of words needed to hold `count` bits, `ceil(count / 32)`. */
  function WordsFor(count: nat): nat {
    (count + 31) / 32
  }

  /** Storage holds exactly `ceil(count / 32)` words and `count` fits in 32 bits. */
  predicate Valid(b: BitArray) {
    |b.words| == WordsFor(b.count) && b.count <= MaxCount
  }

  /** Indexer get: only the word index is range-checked, not `i < count`. */
  function Get(b: BitArray, i: nat): bool
    requires i / 32 < |b.words|
  {
    b.words[i / 32][i % 32]
  }

  /** Indexer set: rewrites the addressed bit of its word and nothing else. */
  function Set(b: BitArray, i: nat, v: bool): (r: BitArray)
    requires i / 32 < |b.words|
    ensures r.count == b.count && |r.words| == |b.words|
    ensures Get(r, i) == v
    ensures forall j: nat | j / 32 < |b.words| && j != i :: Get(r, j) == Get(b, j)
  {
    b.(words := b.words[i / 32 := b.words[i / 32][i % 32 := v]])
  }

  /** Two arrays of the same shape that read the same at every bit of
      their words are equal. */
  lemma Extensional(b1: BitArray, b2: BitArray)
    requires b1.count == b2.count && |b1.words| == |b2.words|
    requires forall j: nat | j / 32 < |b1.words| :: Get(b1, j) == Get(b2, j)
    ensures b1 == b2
  {
    forall k | 0 <= k < |b1.words|
      ensures b1.words[k] == b2.words[k]
    {
      forall p | 0 <= p < 32
        ensures b1.words[k][p] == b2.words[k][p]
      {
        var j: nat := 32 * k + p;
        assert j / 32 == k && j % 32 == p;
        assert Get(b1, j) == Get(b2, j);
      }
    }
  }

  /** `Add(bool)`: appends one bit, growing storage by a zero word when the
      new bit starts a word; yields the updated array and the new bit's index. */
  function Add(b: BitArray, v: bool): (r: (BitArray, nat))
    requires Valid(b) && b.count < MaxCount
    ensures r.1 == b.count
    ensures Valid(r.0) && r.0.count == b.count + 1
    ensures Get(r.0, r.1) == v
    ensures forall j: nat | j < b.count :: Get(r.0, j) == Get(b, j)
  {
    (Set(Grow(b), b.count, v), b.count)
  }

  /** The array built by appending `bits` one at a time with `Add(bool)`:
      the indexer reads every bit back. */
  function FromBits(bits: seq<bool>): (r: BitArray)
    requires |bits| <= MaxCount
    ensures Valid(r) && r.count == |bits|
    ensures forall i | 0 <= i < |bits| :: i / 32 < |r.words| && Get(r, i) == bits[i]
  {
    if |bits| == 0 then Empty
    else Add(FromBits(bits[..|bits| - 1]), bits[|bits| - 1]).0
  }

  /** The first half of `Add(bool)`: bump `count`, appending a zero word when
      the existing words cannot hold the new bit. */
  function Grow(b: BitArray): (r: BitArray)
    requires Valid(b) && b.count < MaxCount
    ensures r.count == b.count + 1 && |r.words| == WordsFor(r.count)
    ensures forall j: nat | j < b.count :: Get(r, j) == Get(b, j)
    ensures |r.words| > |b.words| ==> r.words[|b.words|] == Zero
  {
    if |b.words| < b.count / 32 + 1 then BitArray(b.words + [Zero], b.count + 1)
    else b.(count := b.count + 1)
  }

  /** True when bit `j` falls in a word that `Fill` appends whole: a word
      aligned at or after `start` that ends at or before `target`. */
  predicate InWholeWord(start: nat, target: nat, j: nat) {
    start <= j / 32 * 32 && j / 32 * 32 + 32 <= target
  }

  /** The loop of `Add(bool, uint)`: appends bits up to `target`, taking the
      fast path (append the word `fast` and advance by 32) whenever `count`
      is word-aligned and at least 32 bits remain, else appending one bit. */
  function Fill(b: BitArray, v: bool, target: nat, fast: Word): (r: BitArray)
    requires Valid(b) && b.count <= target <= MaxCount
    ensures Valid(r) && r.count == target
    ensures forall j: nat | j < b.count :: Get(r, j) == Get(b, j)
    ensures forall j: nat | b.count <= j < target ::
              Get(r, j) == if InWholeWord(b.count, target, j) then fast[j % 32] else v
    decreases target - b.count
  {
    if b.count >= target then b
    else if target - b.count >= 32 && b.count % 32 == 0 then
      Fill(BitArray(b.words + [fast], b.count + 32), v, target, fast)
    else
      Fill(Add(b, v).0, v, target, fast)
  }

  /** The word the source's fast path appends: `bitValue ? 1u : 0u`. */
  function FastWord(v: bool): Word {
    if v then One else Zero
  }

  /** The loop bound of `Add(bool, uint)`: `count + numBits` in 32-bit
      arithmetic. */
  function RunTarget(b: BitArray, n: nat): nat {
    (b.count + n) % 0x1_0000_0000
  }

  /** `Add(bool, uint)` as written. Appending `false` bits is exact; appending
      `true` bits leaves bits 1..31 of every whole word it appends clear.
      When `count + numBits` passes `2^32 - 1` the loop bound wraps below
      `count` and nothing is appended. */
  function AddRun(b: BitArray, v: bool, n: nat): (r: BitArray)
    requires Valid(b) && n <= MaxCount
    ensures Valid(r)
    ensures r.count == if b.count + n <= MaxCount then b.count + n else b.count
    ensures b.count + n > MaxCount ==> r == b
    ensures forall j: nat | j < b.count :: Get(r, j) == Get(b, j)
    ensures !v ==> forall j: nat | b.count <= j < r.count :: !Get(r, j)
    ensures v ==> forall j: nat | b.count <= j < r.count ::
                    Get(r, j) == (j % 32 == 0 || !InWholeWord(b.count, r.count, j))
  {
    if RunTarget(b, n) < b.count then b
    else Fill(b, v, RunTarget(b, n), FastWord(v))
  }

  /** Appending 32 `true` bits to an empty array reads bit 1 back as `false`. */
  lemma AddRunTrueDropsBits()
    ensures AddRun(Empty, true, 32).count == 32
    ensures !Get(AddRun(Empty, true, 32), 1)
  {
    assert InWholeWord(0, 32, 1);
  }

  /** The word the fast path evidently means to append: all bits equal to `v`. */
  function FilledWord(v: bool): Word {
    if v then Ones else Zero
  }

  /** `Add(bool, uint)` with the fast path appending `~0u` for `true`:
      every appended bit reads back as `v`. The bound wraps as in the
      source. */
  function AddRunFilled(b: BitArray, v: bool, n: nat): (r: BitArray)
    requires Valid(b) && n <= MaxCount
    ensures Valid(r)
    ensures r.count == if b.count + n <= MaxCount then b.count + n else b.count
    ensures b.count + n > MaxCount ==> r == b
    ensures forall j: nat | j < b.count :: Get(r, j) == Get(b, j)
    ensures forall j: nat | b.count <= j < r.count :: Get(r, j) == v
  {
    if RunTarget(b, n) < b.count then b
    else Fill(b, v, RunTarget(b, n), FilledWord(v))
  }

  /** For `false` the source's bulk append and the corrected one agree. */
  lemma AddRunFalseAgrees(b: BitArray, n: nat)
    requires Valid(b) && n <= MaxCount
    ensures AddRun(b, false, n) == AddRunFilled(b, false, n)
  {
  }

  /** A forward scan for bits equal to `target` (BitArray.Visitor). */
  datatype Visitor = Visitor(position: nat, target: bool, initialized: bool)

  function MakeVisitor(target: bool): Visitor {
    Visitor(0, target, false)
  }

  /** The first `MoveNext` of a fresh visitor: it throws exactly on an empty
      array, and otherwise reports bit 0 when bit 0 holds the target. */
  method FirstMove(b: BitArray, target: bool) returns (found: bool, next: Visitor, throws: bool)
    requires Valid(b) && b.count <= 0x1_0000_0000 - 32
    ensures throws <==> b.count == 0
    ensures next.target == target && next.initialized
    ensures !throws && Get(b, 0) == target ==> found && next.position == 0
    ensures found ==> next.position < b.count && Get(b, next.position) == target
  {
    found, next, throws := MoveNext(b, MakeVisitor(target));
  }

  /** The word a scan skips whole: `0u` when looking for `true`, `1u` otherwise. */
  function SkipValue(target: bool): Word {
    if target then Zero else One
  }

  /** `Visitor.MoveNext`: sound (every reported position is a bit equal to
      the target), and the position never moves backwards. The first call
      reads the bit at the start position through the indexer, which throws
      when no storage word holds it; `initialized` is already set then. */
  method MoveNext(b: BitArray, v: Visitor) returns (found: bool, next: Visitor, throws: bool)
    requires Valid(b) && b.count <= 0x1_0000_0000 - 32
    ensures throws <==> !v.initialized && v.position / 32 >= |b.words|
    ensures throws ==> !found && next == v.(initialized := true)
    ensures next.target == v.target && next.initialized
    ensures next.position >= v.position
    ensures found ==> next.position < b.count && Get(b, next.position) == v.target
    ensures found && v.initialized ==> next.position > v.position
    ensures !v.initialized && v.position / 32 < |b.words| && Get(b, v.position) == v.target ==>
              found == (v.position < b.count) && next.position == v.position
  {
    throws := false;
    var position := v.position;
    if !v.initialized {
      if position / 32 >= |b.words| {
        return false, v.(initialized := true), true;
      }
      if Get(b, position) == v.target {
        return position < b.count, Visitor(position, v.target, true), false;
      }
    }
    while position < b.count
      invariant position >= v.position
      decreases b.count - position
    {
      var dataIndex := position / 32;
      if b.words[dataIndex] == SkipValue(v.target) {
        var dst := dataIndex * 32 + 32;
        if dst >= b.count - 1 {
          return false, Visitor(position, v.target, true), false;
        }
        position := dst;
      } else {
        if position >= b.count - 1 {
          return false, Visitor(position, v.target, true), false;
        }
        position := position + 1;
        if Get(b, position) == v.target {
          return true, Visitor(position, v.target, true), false;
        }
      }
    }
    return false, Visitor(position, v.target, true), false;
  }
}

=== FILE: handle_pool.dfy ===
/** A fixed-capacity pool of generation-checked handles (HandlePool).

    Each slot carries a generation that `Free` bumps, so copies of a freed
    handle stop being valid. Free slots sit on a stack that `Allocate` pops
    from the top; the indices handed out are kept in `allocatedSlots`,
    sorted after every allocation for upload to the GPU (the upload itself
    is not part of this model).
 */
module Handles {

  const Int32Max: int := 0x7FFF_FFFF
  const Int32Min: int := -0x8000_0000

  predicate IsInt32(x: int) {
    Int32Min <= x <= Int32Max
  }

  datatype Handle = Handle(index: int, generation: int)

  /** `Handle.Invalid()` */
  const Invalid: Handle := Handle(-1, -1)

  datatype HandlePool = HandlePool(
    capacity: nat,
    count: int,
    freeSlots: seq<nat>,
    generations: seq<int>,
    allocatedSlots: seq<nat>)

  /** `x++` on a C# `int`: unchecked, so the largest value wraps to the smallest. */
  function Inc32(x: int): (r: int)
    requires IsInt32(x)
    ensures IsInt32(r) && r != x
    ensures x < Int32Max ==> r == x + 1
    ensures x == Int32Max ==> r == Int32Min
  {
    if x == Int32Max then Int32Min else x + 1
  }

  // Sequence helpers: the source's `List.Sort` and `List.Remove`.

  predicate Sorted(s: seq<nat>) {
    forall i, j | 0 <= i < j < |s| :: s[i] <= s[j]
  }

  predicate StrictlyAscending(s: seq<nat>) {
    forall i, j | 0 <= i < j < |s| :: s[i] < s[j]
  }

  predicate Distinct(s: seq<nat>) {
    forall i, j | 0 <= i < j < |s| :: s[i] != s[j]
  }

  /** Every element names a slot below `capacity`. */
  predicate Below(s: seq<nat>, capacity: nat) {
    forall k | 0 <= k < |s| :: s[k] < capacity
  }

  /** Puts `x` in front of the first element above it. */
  function Insert(s: seq<nat>, x: nat): (r: seq<nat>)
    ensures |r| == |s| + 1
    ensures multiset(r) == multiset(s) + multiset{x}
  {
    if |s| == 0 then [x]
    else if x < s[0] then [x] + s
    else
      assert s == [s[0]] + s[1..];
      [s[0]] + Insert(s[1..], x)
  }

  lemma InsertMembers(s: seq<nat>, x: nat)
    ensures forall y :: y in Insert(s, x) <==> y in s || y == x
  {
    var r := Insert(s, x);
    forall y
      ensures y in r <==> y in s || y == x
    {
      assert y in r <==> y in multiset(r);
      assert y in s <==> y in multiset(s);
    }
  }

  /** A head no larger than every element of a sorted tail gives a sorted
      list; strictly smaller and a strictly ascending tail, an ascending one. */
  lemma ConsSorted(a: nat, t: seq<nat>)
    requires Sorted(t) && forall k | 0 <= k < |t| :: a <= t[k]
    ensures Sorted([a] + t)
  {
  }

  lemma ConsAscending(a: nat, t: seq<nat>)
    requires StrictlyAscending(t) && forall k | 0 <= k < |t| :: a < t[k]
    ensures StrictlyAscending([a] + t)
  {
  }

  /** Every element of `s` is at least `a`, so is every element of a list
      holding only elements of `s` and `x >= a`. */
  lemma BoundCarries(s: seq<nat>, x: nat, r: seq<nat>, a: nat, strict: bool)
    requires forall y :: y in r ==> y in s || y == x
    requires forall k | 0 <= k < |s| :: if strict then a < s[k] else a <= s[k]
    requires if strict then a < x else a <= x
    ensures forall k | 0 <= k < |r| :: if strict then a < r[k] else a <= r[k]
  {
    forall k | 0 <= k < |r|
      ensures if strict then a < r[k] else a <= r[k]
    {
      assert r[k] in r;
      if r[k] != x {
        var m :| 0 <= m < |s| && s[m] == r[k];
      }
    }
  }

  /** Insertion keeps a list sorted. */
  lemma {:induction false} InsertSorted(s: seq<nat>, x: nat)
    requires Sorted(s)
    ensures Sorted(Insert(s, x))
  {
    if |s| > 0 && x >= s[0] {
      var t := s[1..];
      InsertSorted(t, x);
      InsertMembers(t, x);
      BoundCarries(t, x, Insert(t, x), s[0], false);
      ConsSorted(s[0], Insert(t, x));
    }
  }

  /** Inserting a new element keeps a list strictly ascending. */
  lemma {:induction false} InsertAscending(s: seq<nat>, x: nat)
    requires StrictlyAscending(s) && x !in s
    ensures StrictlyAscending(Insert(s, x))
  {
    if |s| > 0 && x >= s[0] {
      var t := s[1..];
      assert s == [s[0]] + t;
      InsertAscending(t, x);
      InsertMembers(t, x);
      BoundCarries(t, x, Insert(t, x), s[0], true);
      ConsAscending(s[0], Insert(t, x));
    }
  }

  /** `List<uint>.Sort()`: the sorted arrangement of the same elements. */
  function Sort(s: seq<nat>): (r: seq<nat>)
    ensures |r| == |s| && multiset(r) == multiset(s)
    ensures Sorted(r)
  {
    if |s| == 0 then []
    else
      assert s == s[..|s| - 1] + [s[|s| - 1]];
      var sorted := Sort(s[..|s| - 1]);
      InsertSorted(sorted, s[|s| - 1]);
      Insert(sorted, s[|s| - 1])
  }

  /** Inserting an element no smaller than all others appends it. */
  lemma {:induction false} InsertLast(s: seq<nat>, x: nat)
    requires forall k | 0 <= k < |s| :: s[k] <= x
    ensures Insert(s, x) == s + [x]
  {
    if |s| > 0 {
      InsertLast(s[1..], x);
      assert [s[0]] + (s[1..] + [x]) == s + [x];
    }
  }

  /** Sorting a sorted list leaves it as it is. */
  lemma {:induction false} SortSorted(s: seq<nat>)
    requires Sorted(s)
    ensures Sort(s) == s
  {
    if |s| > 0 {
      var init := s[..|s| - 1];
      assert Sorted(init);
      SortSorted(init);
      InsertLast(init, s[|s| - 1]);
      assert init + [s[|s| - 1]] == s;
    }
  }

  /** Appending one element to a sorted list and sorting is an insertion. */
  lemma SortAppend(s: seq<nat>, x: nat)
    requires Sorted(s)
    ensures Sort(s + [x]) == Insert(s, x)
  {
    assert (s + [x])[..|s|] == s;
    SortSorted(s);
  }

  /** `List.Remove`: drops the first occurrence of `x`, if any. */
  function RemoveFirst(s: seq<nat>, x: nat): (r: seq<nat>)
    ensures x in s ==> |r| == |s| - 1 && multiset(r) == multiset(s) - multiset{x}
    ensures x !in s ==> r == s
  {
    if |s| == 0 then []
    else if s[0] == x then
      assert s == [s[0]] + s[1..];
      s[1..]
    else
      assert s == [s[0]] + s[1..];
      [s[0]] + RemoveFirst(s[1..], x)
  }

  /** What `RemoveFirst` removes: when `k` is the first occurrence of `x`,
      exactly the element at `k`, with the elements before and after it kept
      in order. */
  lemma {:induction false} RemoveFirstSplit(s: seq<nat>, x: nat, k: nat)
    requires k < |s| && s[k] == x && x !in s[..k]
    ensures RemoveFirst(s, x) == s[..k] + s[k + 1..]
  {
    if k == 0 {
      assert s[..0] + s[1..] == s[1..];
    } else {
      var t := s[1..];
      assert s[..k] == [s[0]] + t[..k - 1];
      RemoveFirstSplit(t, x, k - 1);
      ConsCut(s, k - 1);
    }
  }

  /** Cutting element `k` out of the tail and putting the head back cuts
      element `k + 1` out of the whole. */
  lemma ConsCut(s: seq<nat>, k: nat)
    requires k + 1 < |s|
    ensures [s[0]] + (s[1..][..k] + s[1..][k + 1..]) == s[..k + 1] + s[k + 2..]
  {
    assert s[..k + 1] == [s[0]] + s[1..][..k];
    assert s[k + 2..] == s[1..][k + 1..];
  }

  lemma RemoveMembers(s: seq<nat>, x: nat)
    ensures forall y :: y in RemoveFirst(s, x) ==> y in s
  {
    var r := RemoveFirst(s, x);
    forall y | y in r
      ensures y in s
    {
      assert y in multiset(r);
    }
  }

  /** Removal from a strictly ascending list drops exactly `x`, keeps the
      rest, and keeps the order. */
  lemma {:induction false} RemoveAscending(s: seq<nat>, x: nat)
    requires StrictlyAscending(s)
    ensures StrictlyAscending(RemoveFirst(s, x))
    ensures forall y :: y in RemoveFirst(s, x) <==> y in s && y != x
  {
    if |s| > 0 {
      var t := s[1..];
      assert s == [s[0]] + t;
      assert forall y :: y in s <==> y == s[0] || y in t;
      assert s[0] !in t;
      if s[0] != x {
        RemoveAscending(t, x);
        RemoveMembers(t, x);
        BoundCarries(t, s[0] + 1, RemoveFirst(t, x), s[0], true);
        ConsAscending(s[0], RemoveFirst(t, x));
      }
    }
  }

  /** The free stack and the allocated list split the slots between them. */
  predicate Splits(free: seq<nat>, taken: seq<nat>, capacity: nat) {
    forall i: nat | i < capacity :: i in free <==> i !in taken
  }

  /** The slot bookkeeping the pool keeps. */
  predicate Slots(free: seq<nat>, taken: seq<nat>, capacity: nat) {
    && Distinct(free) && Below(free, capacity)
    && StrictlyAscending(taken) && Below(taken, capacity)
    && Splits(free, taken, capacity)
  }

  /** Popping the top free slot into the allocated list keeps the bookkeeping. */
  lemma PopKeepsSlots(free: seq<nat>, taken: seq<nat>, capacity: nat)
    requires |free| > 0 && Slots(free, taken, capacity)
    ensures var top := free[|free| - 1];
            && top !in taken
            && Slots(free[..|free| - 1], Insert(taken, top), capacity)
  {
    var last := |free| - 1;
    var top := free[last];
    var rest := free[..last];
    var alloc := Insert(taken, top);
    assert top in free;
    assert top !in rest;
    InsertAscending(taken, top);
    InsertMembers(taken, top);
    assert Below(alloc, capacity) by {
      forall k | 0 <= k < |alloc|
        ensures alloc[k] < capacity
      {
        assert alloc[k] in alloc;
        if alloc[k] != top {
          var m :| 0 <= m < |taken| && taken[m] == alloc[k];
        }
      }
    }
    forall i: nat | i < capacity
      ensures i in rest <==> i !in alloc
    {
      if i != top && i in free {
        var k :| 0 <= k < |free| && free[k] == i;
        assert rest[k] == i;
      }
    }
  }

  /** Pushing an allocated slot back on the free stack keeps the bookkeeping. */
  lemma {:induction false} PushKeepsSlots(free: seq<nat>, taken: seq<nat>, capacity: nat, x: nat)
    requires x in taken && Slots(free, taken, capacity)
    ensures Slots(free + [x], RemoveFirst(taken, x), capacity)
  {
    var alloc := RemoveFirst(taken, x);
    RemoveAscending(taken, x);
    var m :| 0 <= m < |taken| && taken[m] == x;
    assert x !in free;
    assert Below(alloc, capacity) by {
      forall k | 0 <= k < |alloc|
        ensures alloc[k] < capacity
      {
        assert alloc[k] in alloc;
        var j :| 0 <= j < |taken| && taken[j] == alloc[k];
      }
    }
    assert Distinct(free + [x]) by {
      forall i, j | 0 <= i < j < |free| + 1
        ensures (free + [x])[i] != (free + [x])[j]
      {
        if j == |free| {
          assert free[i] in free;
        }
      }
    }
  }

  /** The index is `-1` or names a slot: anything else makes the source's
      `generations[handle.index]` throw. */
  predicate InRange(p: HandlePool, h: Handle) {
    h.index == -1 || 0 <= h.index < |p.generations|
  }

  /** `IsValid`: not the invalid index, and the slot's current generation. */
  predicate IsValid(p: HandlePool, h: Handle)
    requires InRange(p, h)
  {
    h.index != -1 && p.generations[h.index] == h.generation
  }

  /** What the pool keeps true when every freed handle came from `Allocate`:
      the free stack and the allocated list split the slots between them,
      the allocated list is strictly ascending, and `count` is its length. */
  predicate Inv(p: HandlePool) {
    && p.capacity <= Int32Max
    && |p.generations| == p.capacity
    && (forall i | 0 <= i < |p.generations| :: IsInt32(p.generations[i]))
    && p.count == |p.allocatedSlots|
    && |p.freeSlots| + |p.allocatedSlots| == p.capacity
    && Slots(p.freeSlots, p.allocatedSlots, p.capacity)
  }

  /** `[capacity - 1, ..., k]`: the free stack of a fresh pool after `k`
      allocations. */
  function Countdown(capacity: nat, k: nat): (r: seq<nat>)
    requires k <= capacity
    ensures |r| == capacity - k
    ensures forall j | 0 <= j < |r| :: r[j] == capacity - 1 - j
  {
    seq(capacity - k, j requires 0 <= j < capacity - k => capacity - 1 - j)
  }

  /** The constructor: every slot free at generation 0, the stack holding
      `capacity - 1` at the bottom and `0` on top. */
  function New(capacity: nat): (p: HandlePool)
    requires capacity <= Int32Max
    ensures Inv(p)
    ensures p.count == 0 && p.allocatedSlots == []
    ensures p.freeSlots == Countdown(capacity, 0)
    ensures |p.generations| == capacity
    ensures forall i | 0 <= i < |p.generations| :: p.generations[i] == 0
  {
    var free := Countdown(capacity, 0);
    assert forall i: nat | i < capacity :: i in free by {
      forall i: nat | i < capacity
        ensures i in free
      {
        assert free[capacity - 1 - i] == i;
      }
    }
    HandlePool(capacity, 0, free, seq(capacity, _ => 0), [])
  }

  /** The slot `Allocate` would hand out next. */
  function Top(p: HandlePool): nat
    requires |p.freeSlots| > 0
  {
    p.freeSlots[|p.freeSlots| - 1]
  }

  /** `Allocate`: pops the top free slot and pairs it with the slot's current
      generation; the index joins the allocated list, which is then sorted.
      The source has no guard for an empty stack. */
  function Allocate(p: HandlePool): (r: (HandlePool, Handle))
    requires |p.freeSlots| > 0 && Top(p) < |p.generations|
    ensures r.1.index == Top(p)
    ensures InRange(r.0, r.1) && IsValid(r.0, r.1)
    ensures r.0.count == p.count + 1 && r.0.generations == p.generations
    ensures r.0.freeSlots == p.freeSlots[..|p.freeSlots| - 1]
    ensures Sorted(r.0.allocatedSlots)
    ensures multiset(r.0.allocatedSlots) == multiset(p.allocatedSlots) + multiset{Top(p)}
  {
    var index := Top(p);
    (p.(count := p.count + 1,
        freeSlots := p.freeSlots[..|p.freeSlots| - 1],
        allocatedSlots := Sort(p.allocatedSlots + [index])),
     Handle(index, p.generations[index]))
  }

  /** On a pool in its invariant, `Allocate` hands out a slot that was not
      allocated, records it, and keeps the allocated list strictly ascending. */
  lemma AllocateKeepsInv(p: HandlePool)
    requires Inv(p) && |p.freeSlots| > 0
    ensures Top(p) < |p.generations|
    ensures Inv(Allocate(p).0)
    ensures Top(p) !in p.allocatedSlots && Top(p) in Allocate(p).0.allocatedSlots
    ensures StrictlyAscending(Allocate(p).0.allocatedSlots)
  {
    assert Top(p) in p.freeSlots;
    SortAppend(p.allocatedSlots, Top(p));
    PopKeepsSlots(p.freeSlots, p.allocatedSlots, p.capacity);
    InsertMembers(p.allocatedSlots, Top(p));
  }

  /** `Free`: a handle that fails `IsValid` changes nothing; otherwise the
      slot's generation is bumped, the slot pushed on the free stack, and
      its index removed from the allocated list. */
  function Free(p: HandlePool, h: Handle): (r: HandlePool)
    requires InRange(p, h)
    requires h.index != -1 ==> IsInt32(p.generations[h.index])
    ensures !IsValid(p, h) ==> r == p
    ensures IsValid(p, h) ==>
              && r.count == p.count - 1
              && r.freeSlots == p.freeSlots + [h.index]
              && |r.generations| == |p.generations|
              && r.generations[h.index] == Inc32(h.generation)
              && (forall j | 0 <= j < |p.generations| && j != h.index :: r.generations[j] == p.generations[j])
              && (h.index in p.allocatedSlots ==>
                    multiset(r.allocatedSlots) == multiset(p.allocatedSlots) - multiset{h.index as nat})
              && (h.index !in p.allocatedSlots ==> r.allocatedSlots == p.allocatedSlots)
              && r.allocatedSlots == RemoveFirst(p.allocatedSlots, h.index)
    ensures InRange(r, h) && !IsValid(r, h)
  {
    if !IsValid(p, h) then p
    else
      var i := h.index;
      p.(count := p.count - 1,
         generations := p.generations[i := Inc32(p.generations[i])],
         freeSlots := p.freeSlots + [i],
         allocatedSlots := RemoveFirst(p.allocatedSlots, i))
  }

  /** Freeing a handle the pool handed out, and has not taken back, keeps
      the invariant and takes exactly its slot out of the allocated list. */
  lemma FreeKeepsInv(p: HandlePool, h: Handle)
    requires Inv(p) && InRange(p, h) && IsValid(p, h) && h.index in p.allocatedSlots
    ensures Inv(Free(p, h))
    ensures forall i :: i in Free(p, h).allocatedSlots <==> i in p.allocatedSlots && i != h.index
  {
    PushKeepsSlots(p.freeSlots, p.allocatedSlots, p.capacity, h.index);
    RemoveAscending(p.allocatedSlots, h.index);
    var r := Free(p, h);
    assert forall i | 0 <= i < |r.generations| :: IsInt32(r.generations[i]) by {
      forall i | 0 <= i < |r.generations|
        ensures IsInt32(r.generations[i])
      {
        if i != h.index {
          assert r.generations[i] == p.generations[i];
        }
      }
    }
  }

  /** `Handle.Invalid()` is never valid. */
  lemma InvalidNeverValid(p: HandlePool)
    ensures InRange(p, Invalid) && !IsValid(p, Invalid)
  {
  }

  /** Exactly which handles `IsValid` accepts after each operation.
      `Allocate` changes no generation, so validity is as before. `Free` of
      a valid handle withdraws every handle to its slot and accepts one new
      one, the slot with the bumped generation, which is what the next
      `Allocate` of that slot hands out. */
  lemma ValidityAfter(p: HandlePool, h: Handle, g: Handle)
    requires InRange(p, h) && InRange(p, g)
    requires h.index != -1 ==> IsInt32(p.generations[h.index])
    ensures InRange(Free(p, h), g)
    ensures IsValid(Free(p, h), g) <==>
              if IsValid(p, h) then
                (IsValid(p, g) && g.index != h.index) || g == Handle(h.index, Inc32(h.generation))
              else IsValid(p, g)
    ensures |p.freeSlots| > 0 && Top(p) < |p.generations| ==>
              InRange(Allocate(p).0, g) && (IsValid(Allocate(p).0, g) <==> IsValid(p, g))
  {
  }

  /** Validity is per slot: allocating or freeing through one handle leaves
      the validity of every handle to another slot as it was. */
  lemma OtherHandlesUnaffected(p: HandlePool, h: Handle, other: Handle)
    requires Inv(p) && InRange(p, h) && InRange(p, other) && h.index != other.index
    ensures InRange(Free(p, h), other) && IsValid(Free(p, h), other) == IsValid(p, other)
    ensures |p.freeSlots| > 0 ==>
              var q := Allocate(p).0;
              InRange(q, other) && IsValid(q, other) == IsValid(p, other)
  {
    if |p.freeSlots| > 0 {
      assert p.freeSlots[|p.freeSlots| - 1] < p.capacity;
    }
  }

  /** Freeing then allocating hands the same slot back with the next
      generation, and the freed handle stays invalid. */
  lemma FreeThenAllocate(p: HandlePool, h: Handle)
    requires Inv(p) && InRange(p, h) && IsValid(p, h)
    ensures var q := Free(p, h);
            && |q.freeSlots| > 0 && Top(q) < |q.generations|
            && Allocate(q).1 == Handle(h.index, Inc32(h.generation))
            && InRange(Allocate(q).0, h) && !IsValid(Allocate(q).0, h)
  {
  }

  /** `IsValid` cannot tell a forged handle from an issued one: `(0, 0)` is
      valid in a fresh pool, and freeing it puts slot 0 on the free stack a
      second time. */
  lemma ForgedHandleBreaksInv()
    ensures var p := New(1);
            && InRange(p, Handle(0, 0)) && IsValid(p, Handle(0, 0))
            && !Inv(Free(p, Handle(0, 0)))
  {
    var p := New(1);
    var r := Free(p, Handle(0, 0));
    assert r.freeSlots[0] == r.freeSlots[1] == 0;
  }

  /** A fresh pool hands out slots `0, 1, 2, ...`, all at generation 0:
      `New` leaves the stack `[capacity - 1, ..., 0]`, and from a stack
      `[capacity - 1, ..., k]` over untouched generations, `Allocate` returns
      `(k, 0)` and leaves `[capacity - 1, ..., k + 1]`. */
  lemma FreshPoolInOrder(p: HandlePool, k: nat)
    requires k < p.capacity == |p.generations|
    requires p.freeSlots == Countdown(p.capacity, k)
    requires forall i | 0 <= i < |p.generations| :: p.generations[i] == 0
    ensures |p.freeSlots| > 0 && Top(p) < |p.generations|
    ensures Allocate(p).1 == Handle(k, 0)
    ensures Allocate(p).0.freeSlots == Countdown(p.capacity, k + 1)
    ensures Allocate(p).0.generations == p.generations
  {
    assert Top(p) == k;
  }

  /** The scenario of a pool of four: allocate `(0, 0)`, free it, allocate
      again and get `(0, 1)`; the first handle is stale, the second valid. */
  lemma StaleHandleScenario()
    ensures var p0 := New(4);
            var (p1, h0) := Allocate(p0);
            var p2 := Free(p1, h0);
            var (p3, h1) := Allocate(p2);
            && h0 == Handle(0, 0) && h1 == Handle(0, 1)
            && InRange(p3, h0) && !IsValid(p3, h0)
            && InRange(p3, h1) && IsValid(p3, h1)
  {
    var p0 := New(4);
    assert p0.freeSlots == [3, 2, 1, 0];
  }
}

=== FILE: quad_marks.dfy ===
/** The bit-level loops of GPUScene.RectAllocator over its flat quad-tree
    bitset: each level's quads are stored consecutively from the level's
    offset, so quad `n` owns bit `Flat(n)`. Every loop here touches only bits
    below `count`; the words' padding bits beyond it are left as they were.
 */
module QuadMarks {
  import Bits
  import opened QuadTree

  /** Bit `i` exists and is set. */
  predicate Bit(m: Bits.BitArray, i: nat) {
    i / 32 < |m.words| && Bits.Get(m, i)
  }

  /** The quad's occupancy bit is set. */
  predicate Marked(m: Bits.BitArray, n: Node) {
    Flat(n) / 32 < |m.words| && Bits.Get(m, Flat(n))
  }

  /** The bitset has one bit per quad of a tree with `|offsets|` levels, and
      `offsets` holds each level's first flat index. */
  predicate Layout(offsets: seq<nat>, m: Bits.BitArray) {
    && Bits.Valid(m)
    && m.count == Offset(|offsets|)
    && (forall L {:trigger offsets[L]} | 0 <= L < |offsets| :: offsets[L] == Offset(L))
  }

  /** A run of set bits from a level's offset marks that level's first quads. */
  lemma MarkedPrefix(m: Bits.BitArray, offsets: seq<nat>, level: nat, count: nat)
    requires Layout(offsets, m) && level < |offsets|
    requires forall i | offsets[level] <= i < offsets[level] + count :: Bit(m, i)
    ensures forall k | 0 <= k < count :: Marked(m, Node(level, k))
  {
    forall k | 0 <= k < count
      ensures Marked(m, Node(level, k))
    {
      assert Bit(m, offsets[level] + k);
    }
  }

  /** The search of `Alloc`: the first unmarked quad of `level` in Morton
      order, or none when every quad of the level is marked. */
  method FirstFit(m: Bits.BitArray, offsets: seq<nat>, level: nat) returns (found: bool, n: Node)
    requires Layout(offsets, m) && level < |offsets|
    ensures found ==> n.level == level && n.idx < Pow4(level) && !Marked(m, n)
    ensures found ==> forall k | 0 <= k < n.idx :: Marked(m, Node(level, k))
    ensures !found ==> forall k | 0 <= k < Pow4(level) :: Marked(m, Node(level, k))
  {
    var levelOffset := offsets[level];
    var quadsInLevel1D := Pow2(level);
    var searchEnd := levelOffset + quadsInLevel1D * quadsInLevel1D;
    Pow4IsSquare(level);
    OffsetMonotone(level, |offsets|);
    var quadIdx := FirstClear(m, levelOffset, searchEnd);
    if quadIdx == searchEnd {
      MarkedPrefix(m, offsets, level, Pow4(level));
      return false, Node(0, 0);
    }
    n := Node(level, quadIdx - levelOffset);
    assert Flat(n) == quadIdx;
    MarkedPrefix(m, offsets, level, n.idx);
    found := true;
  }

  /** Setting a bit inside the bitset changes that bit only. */
  lemma {:induction false} SetBit(m: Bits.BitArray, i: nat, v: bool)
    requires Bits.Valid(m) && i < m.count
    ensures Bits.Valid(Bits.Set(m, i, v))
    ensures forall j: nat :: Bit(Bits.Set(m, i, v), j) == if j == i then v else Bit(m, j)
  {
  }

  /** The first-fit scan: the lowest clear bit in `[lo, hi)`, or `hi`. */
  method FirstClear(m: Bits.BitArray, lo: nat, hi: nat) returns (idx: nat)
    requires Bits.Valid(m) && lo <= hi <= m.count
    ensures lo <= idx <= hi
    ensures forall i | lo <= i < idx :: Bit(m, i)
    ensures idx < hi ==> !Bit(m, idx)
  {
    idx := lo;
    while idx < hi
      invariant lo <= idx <= hi
      invariant forall i | lo <= i < idx :: Bit(m, i)
    {
      if !Bits.Get(m, idx) {
        return;
      }
      idx := idx + 1;
    }
  }

  /** The upward marking loop of `Alloc`: sets the bits of `n` and of its
      ancestors, stopping at the first ancestor already set (level `stop`,
      or -1 when it reaches past the root). */
  method MarkAncestors(m: Bits.BitArray, offsets: seq<nat>, n: Node) returns (r: Bits.BitArray, ghost stop: int)
    requires Layout(offsets, m) && InTree(n, |offsets|)
    ensures Bits.Valid(r) && r.count == m.count && |r.words| == |m.words|
    ensures -1 <= stop <= n.level
    ensures stop >= 0 ==> Marked(m, Ancestor(n, stop))
    ensures forall j: nat | m.count <= j :: Bit(r, j) == Bit(m, j)
    ensures forall i | 0 <= i < m.count ::
              Bit(r, i) == (Bit(m, i) || (stop < NodeAt(i).level && IsAncestorOrSelf(NodeAt(i), n)))
  {
    r := m;
    var level: int := n.level;
    var idx := n.idx;
    while level >= 0
      invariant -1 <= level <= n.level
      invariant Bits.Valid(r) && r.count == m.count && |r.words| == |m.words|
      invariant level >= 0 ==> idx == Ancestor(n, level).idx
      invariant forall j: nat | m.count <= j :: Bit(r, j) == Bit(m, j)
      invariant forall i | 0 <= i < m.count ::
                  Bit(r, i) == (Bit(m, i) || (level < NodeAt(i).level && IsAncestorOrSelf(NodeAt(i), n)))
      decreases level + 1
    {
      ghost var p := Ancestor(n, level);
      AncestorInTree(n, level);
      NodeAtFlat(p);
      FlatBound(p, |offsets|);
      var quad := offsets[level] + idx;
      assert quad == Flat(p);
      if Bits.Get(r, quad) {
        stop := level;
        return;
      }
      SetBit(r, quad, true);
      r := Bits.Set(r, quad, true);
      forall i | 0 <= i < m.count
        ensures Bit(r, i) == (Bit(m, i) || (level - 1 < NodeAt(i).level && IsAncestorOrSelf(NodeAt(i), n)))
      {
        NodeAtSpec(i, |offsets|);
      }
      if level > 0 {
        AncestorTrans(n, level, level - 1);
      }
      idx := idx / 4;
      level := level - 1;
    }
    stop := -1;
  }

  /** The run of `root`'s descendants at `level` lies inside the level. */
  lemma {:induction false} RunInLevel(root: Node, level: nat)
    requires root.idx < Pow4(root.level) && root.level <= level
    ensures root.idx * Pow4(level - root.level) + Pow4(level - root.level) <= Pow4(level)
  {
    Pow4Add(root.level, level - root.level);
    MulMono(root.idx + 1, Pow4(root.level), Pow4(level - root.level));
  }

  /** One level down the run starts four times further and is four times longer. */
  lemma {:induction false} RunNext(root: Node, level: nat)
    requires root.level <= level
    ensures root.idx * Pow4(level + 1 - root.level) == root.idx * Pow4(level - root.level) * 4
    ensures Pow4(level + 1 - root.level) == Pow4(level - root.level) * 4
  {
    assert Pow4(level + 1 - root.level) == 4 * Pow4(level - root.level);
  }

  /** One level of the downward loops: sets the `num` bits of level `level`
      starting at in-level index `first` to `v`. */
  method SetRun(m: Bits.BitArray, offsets: seq<nat>, level: nat, first: nat, num: nat, v: bool)
    returns (r: Bits.BitArray)
    requires Layout(offsets, m) && level < |offsets| && first + num <= Pow4(level)
    ensures Bits.Valid(r) && r.count == m.count && |r.words| == |m.words|
    ensures forall j: nat | m.count <= j :: Bit(r, j) == Bit(m, j)
    ensures forall i | 0 <= i < m.count ::
              Bit(r, i) == if NodeAt(i).level == level && first <= NodeAt(i).idx < first + num then v else Bit(m, i)
  {
    r := m;
    var base := first + offsets[level];
    var k := 0;
    while k < num
      invariant 0 <= k <= num
      invariant Bits.Valid(r) && r.count == m.count && |r.words| == |m.words|
      invariant forall j: nat | m.count <= j :: Bit(r, j) == Bit(m, j)
      invariant forall i | 0 <= i < m.count ::
                  Bit(r, i) == if NodeAt(i).level == level && first <= NodeAt(i).idx < first + k then v else Bit(m, i)
    {
      ghost var c := Node(level, first + k);
      NodeAtFlat(c);
      FlatBound(c, |offsets|);
      SetBit(r, base + k, v);
      r := Bits.Set(r, base + k, v);
      forall i | 0 <= i < m.count
        ensures Bit(r, i) == if NodeAt(i).level == level && first <= NodeAt(i).idx < first + k + 1 then v else Bit(m, i)
      {
        NodeAtSpec(i, |offsets|);
      }
      k := k + 1;
    }
  }

  /** The downward loops of `Alloc` and `Free`: from level `from` (the quad's
      own level or the next) to the finest level, sets every bit under
      `root` to `v`, a run of `num` bits starting at in-level index `first`
      per level, the run growing fourfold per level. */
  method SetSubtree(m: Bits.BitArray, offsets: seq<nat>, root: Node, from: nat, first: nat, num: nat, v: bool)
    returns (r: Bits.BitArray)
    requires Layout(offsets, m) && InTree(root, |offsets|)
    requires root.level <= from <= root.level + 1
    requires first == root.idx * Pow4(from - root.level) && num == Pow4(from - root.level)
    ensures Bits.Valid(r) && r.count == m.count && |r.words| == |m.words|
    ensures forall j: nat | m.count <= j :: Bit(r, j) == Bit(m, j)
    ensures forall i | 0 <= i < m.count ::
              Bit(r, i) == if from <= NodeAt(i).level && IsAncestorOrSelf(root, NodeAt(i)) then v else Bit(m, i)
  {
    r := m;
    var level := from;
    var childFirst := first;
    var numChildren := num;
    while level < |offsets|
      invariant from <= level && (from < |offsets| ==> level <= |offsets|)
      invariant Bits.Valid(r) && r.count == m.count && |r.words| == |m.words|
      invariant childFirst == root.idx * Pow4(level - root.level) && numChildren == Pow4(level - root.level)
      invariant forall j: nat | m.count <= j :: Bit(r, j) == Bit(m, j)
      invariant forall i | 0 <= i < m.count ::
                  Bit(r, i) == if from <= NodeAt(i).level < level && IsAncestorOrSelf(root, NodeAt(i)) then v else Bit(m, i)
    {
      RunInLevel(root, level);
      r := SetRun(r, offsets, level, childFirst, numChildren, v);
      forall i | 0 <= i < m.count
        ensures Bit(r, i) == if from <= NodeAt(i).level < level + 1 && IsAncestorOrSelf(root, NodeAt(i)) then v else Bit(m, i)
      {
        if NodeAt(i).level == level {
          SubtreeRange(root, NodeAt(i));
        }
      }
      RunNext(root, level);
      childFirst := childFirst * 4;
      numChildren := numChildren * 4;
      level := level + 1;
    }
    forall i | 0 <= i < m.count
      ensures Bit(r, i) == if from <= NodeAt(i).level && IsAncestorOrSelf(root, NodeAt(i)) then v else Bit(m, i)
    {
      NodeAtSpec(i, |offsets|);
    }
  }

  /** Every ancestor of `n` strictly between levels `stop` and `n.level` has
      four clear children in `r`. */
  predicate EmptyParents(r: Bits.BitArray, n: Node, stop: int) {
    forall J: nat | stop < J < n.level :: ChildrenClear(r, Ancestor(n, J))
  }

  /** Clearing the ancestor at `level` extends the cleared band by one level. */
  lemma {:induction false} ClearStep(m: Bits.BitArray, r0: Bits.BitArray, levels: nat, n: Node, level: nat, at: nat)
    requires Bits.Valid(r0) && r0.count == m.count == Offset(levels)
    requires InTree(n, levels) && level < n.level
    requires at == Flat(Ancestor(n, level))
    requires forall i | 0 <= i < m.count ::
               Bit(r0, i) == (Bit(m, i) && !(level < NodeAt(i).level < n.level && IsAncestorOrSelf(NodeAt(i), n)))
    ensures at < r0.count
    ensures forall i | 0 <= i < m.count ::
              Bit(Bits.Set(r0, at, false), i) == (Bit(m, i) && !(level - 1 < NodeAt(i).level < n.level && IsAncestorOrSelf(NodeAt(i), n)))
  {
    var p := Ancestor(n, level);
    AncestorInTree(n, level);
    NodeAtFlat(p);
    FlatBound(p, levels);
    SetBit(r0, Flat(p), false);
    forall i | 0 <= i < m.count
      ensures Bit(Bits.Set(r0, Flat(p), false), i)
              == (Bit(m, i) && !(level - 1 < NodeAt(i).level < n.level && IsAncestorOrSelf(NodeAt(i), n)))
    {
      NodeAtSpec(i, levels);
    }
  }

  /** The clearing loop's index arithmetic: `test` is the in-level index of
      the first child of the ancestor at `level`, so a shift by two gives
      that ancestor ... */
  lemma {:induction false} AlignParent(n: Node, level: nat, test: nat, parentIdx: nat)
    requires level < n.level && test == 4 * Ancestor(n, level).idx && parentIdx == test / 4
    ensures parentIdx == Ancestor(n, level).idx
  {
  }

  /** ... and masking its two low bits gives the `test` of the next level up. */
  lemma {:induction false} AlignNext(n: Node, level: nat, parentIdx: nat, next: int)
    requires 0 < level < n.level && parentIdx == Ancestor(n, level).idx
    requires next == parentIdx - parentIdx % 4
    ensures next == 4 * Ancestor(n, level - 1).idx
  {
    AncestorTrans(n, level, level - 1);
  }

  /** The four children of a quad above the finest level own bits
      `first .. first + 3`, `first` being their level's offset plus four
      times the quad's index; so the quad's children are all clear exactly
      when those four bits read clear. */
  lemma {:induction false} ChildrenClearAt(m: Bits.BitArray, offsets: seq<nat>, p: Node, first: nat)
    requires Layout(offsets, m) && p.level + 1 < |offsets| && p.idx < Pow4(p.level)
    requires first == 4 * p.idx + offsets[p.level + 1]
    ensures first + 3 < m.count && (first + 3) / 32 < |m.words|
    ensures ChildrenClear(m, p) <==>
              !Bits.Get(m, first) && !Bits.Get(m, first + 1) && !Bits.Get(m, first + 2) && !Bits.Get(m, first + 3)
  {
    FlatBound(Child(p, 3), |offsets|);
    assert Flat(Child(p, 0)) == first && Flat(Child(p, 1)) == first + 1;
    assert Flat(Child(p, 2)) == first + 2 && Flat(Child(p, 3)) == first + 3;
  }

  /** Clearing a bit sets no other bit, so parents found empty stay empty. */
  lemma {:induction false} ClearKeepsParentsEmpty(m: Bits.BitArray, i: nat, n: Node, level: nat)
    requires Bits.Valid(m) && i < m.count && level < n.level
    requires EmptyParents(m, n, level) && ChildrenClear(m, Ancestor(n, level))
    ensures EmptyParents(Bits.Set(m, i, false), n, level - 1)
  {
    SetBit(m, i, false);
    forall J: nat | level - 1 < J < n.level
      ensures ChildrenClear(Bits.Set(m, i, false), Ancestor(n, J))
    {
      assert ChildrenClear(m, Ancestor(n, J));
    }
  }

  /** All four children of `p` read clear. */
  predicate ChildrenClear(m: Bits.BitArray, p: Node) {
    forall c | 0 <= c < 4 :: !Marked(m, Child(p, c))
  }

  /** Child `c` (0..3) of `p`. */
  function Child(p: Node, c: nat): Node {
    Node(p.level + 1, 4 * p.idx + c)
  }
  /** The child of `x` on the way down to its strict descendant `y`. */
  lemma ChildToward(x: Node, y: Node) returns (c: Node)
    requires IsAncestorOrSelf(x, y) && x != y
    ensures c.level == x.level + 1 <= y.level
    ensures c == Ancestor(y, x.level + 1) && c == Child(x, c.idx % 4)
    ensures IsAncestorOrSelf(c, y)
  {
    assert x.level < y.level;
    c := Ancestor(y, x.level + 1);
    AncestorTrans(y, x.level + 1, x.level);
  }


  /** The upward clearing loop of `Free`: clears each ancestor of `n` whose
      four children all read clear, stopping at the first one that has a set
      child (level `stop`, or -1 past the root). */
  method ClearEmptyParents(m: Bits.BitArray, offsets: seq<nat>, n: Node) returns (r: Bits.BitArray, ghost stop: int)
    requires Layout(offsets, m) && InTree(n, |offsets|)
    ensures Bits.Valid(r) && r.count == m.count && |r.words| == |m.words|
    ensures -1 <= stop < n.level
    ensures forall j: nat | m.count <= j :: Bit(r, j) == Bit(m, j)
    ensures forall i | 0 <= i < m.count ::
              Bit(r, i) == (Bit(m, i) && !(stop < NodeAt(i).level < n.level && IsAncestorOrSelf(NodeAt(i), n)))
    ensures EmptyParents(r, n, stop)
    ensures stop >= 0 ==> !ChildrenClear(r, Ancestor(n, stop))
  {
    r := m;
    var test := n.idx - n.idx % 4;
    var level: int := n.level - 1;
    while level >= 0
      invariant -1 <= level < n.level
      invariant level >= 0 ==> test == 4 * Ancestor(n, level).idx
      invariant Bits.Valid(r) && r.count == m.count && |r.words| == |m.words|
      invariant forall j: nat | m.count <= j :: Bit(r, j) == Bit(m, j)
      invariant forall i | 0 <= i < m.count ::
                  Bit(r, i) == (Bit(m, i) && !(level < NodeAt(i).level < n.level && IsAncestorOrSelf(NodeAt(i), n)))
      invariant EmptyParents(r, n, level)
      decreases level + 1
    {
      ghost var p := Ancestor(n, level);
      AncestorInTree(n, level);
      NodeAtFlat(p);
      FlatBound(p, |offsets|);
      var testIdx := test + offsets[level + 1];
      ChildrenClearAt(r, offsets, p, testIdx);
      var parentFree := !Bits.Get(r, testIdx) && !Bits.Get(r, testIdx + 1)
                        && !Bits.Get(r, testIdx + 2) && !Bits.Get(r, testIdx + 3);
      if !parentFree {
        stop := level;
        return;
      }
      var parentIdx := test / 4;
      AlignParent(n, level, test, parentIdx);
      var quad := parentIdx + offsets[level];
      ClearKeepsParentsEmpty(r, quad, n, level);
      ClearStep(m, r, |offsets|, n, level, quad);
      SetBit(r, quad, false);
      r := Bits.Set(r, quad, false);
      var next := parentIdx - parentIdx % 4;
      if level > 0 {
        AlignNext(n, level, parentIdx, next);
      }
      test := next;
      level := level - 1;
    }
    stop := -1;
  }
}

=== FILE: quad_tree.dfy ===
/** The flat quad-tree layout behind GPUScene.RectAllocator.

    Level `L` of the tree has `4^L` quads, stored one bit each at flat
    indices `Offset(L) .. Offset(L) + 4^L - 1` of a single bitset. A quad's
    in-level index is the Morton (Z-order) interleaving of its column and
    row, so its parent's index is the index divided by 4 and its children
    are `4 * idx + 0 .. 3`.
 */
module QuadTree {

  function Pow2(k: nat): (r: nat)
    ensures r >= 1
  {
    if k == 0 then 1 else 2 * Pow2(k - 1)
  }

  function Pow4(k: nat): (r: nat)
    ensures r >= 1
  {
    if k == 0 then 1 else 4 * Pow4(k - 1)
  }

  lemma {:induction false} Pow4IsSquare(k: nat)
    ensures Pow4(k) == Pow2(k) * Pow2(k)
  {
    if k > 0 {
      Pow4IsSquare(k - 1);
    }
  }

  lemma {:induction false} Pow2Add(a: nat, b: nat)
    ensures Pow2(a + b) == Pow2(a) * Pow2(b)
  {
    if a > 0 {
      Pow2Add(a - 1, b);
    }
  }

  lemma {:induction false} Pow4Add(a: nat, b: nat)
    ensures Pow4(a + b) == Pow4(a) * Pow4(b)
  {
    if a > 0 {
      Pow4Add(a - 1, b);
    }
  }

  /** Each further power of two at least doubles. */
  lemma {:induction false} Pow2Monotone(a: nat, b: nat)
    requires a < b
    ensures 2 * Pow2(a) <= Pow2(b)
    decreases b - a
  {
    if a + 1 < b {
      Pow2Monotone(a + 1, b);
    }
  }

  /** First flat index of level `L`: the quad count of all coarser levels. */
  function Offset(L: nat): nat {
    if L == 0 then 0 else Offset(L - 1) + Pow4(L - 1)
  }

  /** The closed form of the level offsets: `Offset(L) = (4^L - 1) / 3`. */
  lemma {:induction false} OffsetClosedForm(L: nat)
    ensures 3 * Offset(L) + 1 == Pow4(L)
  {
    if L > 0 {
      OffsetClosedForm(L - 1);
    }
  }

  lemma {:induction false} OffsetMonotone(a: nat, b: nat)
    requires a <= b
    ensures Offset(a) + (if a < b then Pow4(a) else 0) <= Offset(b)
    decreases b - a
  {
    if a < b {
      OffsetMonotone(a + 1, b);
    }
  }

  /** A quad: its level and its Morton index within the level. */
  datatype Node = Node(level: nat, idx: nat)

  /** The quad exists in a tree with `levels` levels. */
  predicate InTree(n: Node, levels: nat) {
    n.level < levels && n.idx < Pow4(n.level)
  }

  /** The quad's bit in the flat bitset. */
  function Flat(n: Node): nat {
    Offset(n.level) + n.idx
  }

  lemma FlatBound(n: Node, levels: nat)
    requires InTree(n, levels)
    ensures Flat(n) < Offset(levels)
  {
    OffsetMonotone(n.level, levels);
  }

  /** Distinct quads own distinct bits. */
  lemma FlatInjective(a: Node, b: Node)
    requires a.idx < Pow4(a.level) && b.idx < Pow4(b.level)
    requires Flat(a) == Flat(b)
    ensures a == b
  {
    if a.level < b.level {
      OffsetMonotone(a.level, b.level);
    } else if b.level < a.level {
      OffsetMonotone(b.level, a.level);
    }
  }

  /** Decodes a flat index, scanning levels from `from` upwards. */
  function Locate(i: nat, from: nat): Node
    decreases i
  {
    if i < Pow4(from) then Node(from, i) else Locate(i - Pow4(from), from + 1)
  }

  /** The quad that owns flat bit `i`. */
  function NodeAt(i: nat): Node {
    Locate(i, 0)
  }

  lemma {:induction false} LocateSpec(i: nat, from: nat)
    ensures Locate(i, from).level >= from
    ensures Locate(i, from).idx < Pow4(Locate(i, from).level)
    ensures Flat(Locate(i, from)) == Offset(from) + i
    decreases i
  {
    if i >= Pow4(from) {
      LocateSpec(i - Pow4(from), from + 1);
    }
  }

  /** Every bit of a tree with `levels` levels belongs to exactly one quad. */
  lemma NodeAtSpec(i: nat, levels: nat)
    requires i < Offset(levels)
    ensures InTree(NodeAt(i), levels) && Flat(NodeAt(i)) == i
  {
    LocateSpec(i, 0);
    var n := NodeAt(i);
    if n.level >= levels {
      OffsetMonotone(levels, n.level);
    }
  }

  lemma NodeAtFlat(n: Node)
    requires n.idx < Pow4(n.level)
    ensures NodeAt(Flat(n)) == n
  {
    LocateSpec(Flat(n), 0);
    FlatInjective(NodeAt(Flat(n)), n);
  }

  /** The quad containing `n` at the coarser level `J`; each step up divides
      the in-level index by 4. */
  function Ancestor(n: Node, J: nat): (r: Node)
    requires J <= n.level
    ensures r.level == J
    decreases n.level - J
  {
    if J == n.level then n else Ancestor(Node(n.level - 1, n.idx / 4), J)
  }

  /** `a` is `n` or contains it. */
  predicate IsAncestorOrSelf(a: Node, n: Node) {
    a.level <= n.level && Ancestor(n, a.level) == a
  }

  /** One quad contains the other: their tile regions overlap. */
  predicate Related(a: Node, b: Node) {
    IsAncestorOrSelf(a, b) || IsAncestorOrSelf(b, a)
  }

  /** Ancestors of a quad of the tree are quads of the tree. */
  lemma {:induction false} AncestorInTree(n: Node, J: nat)
    requires J <= n.level && n.idx < Pow4(n.level)
    ensures Ancestor(n, J).idx < Pow4(J)
    decreases n.level - J
  {
    if J < n.level {
      AncestorInTree(Node(n.level - 1, n.idx / 4), J);
    }
  }

  /** Going up to `K` and then to `J` is going up to `J`. */
  lemma {:induction false} AncestorTrans(n: Node, K: nat, J: nat)
    requires J <= K <= n.level
    ensures Ancestor(Ancestor(n, K), J) == Ancestor(n, J)
    decreases n.level - K
  {
    if K < n.level {
      AncestorTrans(Node(n.level - 1, n.idx / 4), K, J);
    }
  }

  lemma AncestorOrSelfTrans(a: Node, b: Node, c: Node)
    requires IsAncestorOrSelf(a, b) && IsAncestorOrSelf(b, c)
    ensures IsAncestorOrSelf(a, c)
  {
    AncestorTrans(c, b.level, a.level);
  }

  /** Two quads that both contain a third are nested. */
  lemma CommonDescendantRelated(a: Node, b: Node, x: Node)
    requires IsAncestorOrSelf(a, x) && IsAncestorOrSelf(b, x)
    ensures Related(a, b)
  {
    if a.level <= b.level {
      AncestorTrans(x, b.level, a.level);
    } else {
      AncestorTrans(x, a.level, b.level);
    }
  }
  /** A quad off the path from the root to `n` (not `n`'s ancestor at its
      own level) is not nested with `n`. */
  lemma OffPath(n: Node, c: Node)
    requires c.level <= n.level && c != Ancestor(n, c.level)
    ensures !Related(c, n)
  {
  }

  /** What contains `c` is nested with whatever `c` is nested with. */
  lemma RelatedThroughAncestor(x: Node, c: Node, y: Node)
    requires IsAncestorOrSelf(x, c) && Related(c, y)
    ensures Related(x, y)
  {
    if IsAncestorOrSelf(c, y) {
      AncestorOrSelfTrans(x, c, y);
    } else {
      CommonDescendantRelated(x, y, c);
    }
  }


  /** The subtree of `root` occupies one contiguous run of each finer level:
      indices `root.idx * 4^k .. root.idx * 4^k + 4^k - 1`, `k` levels down. */
  lemma {:induction false} SubtreeRange(root: Node, n: Node)
    requires root.level <= n.level
    ensures IsAncestorOrSelf(root, n) <==>
              var k := Pow4(n.level - root.level);
              root.idx * k <= n.idx < root.idx * k + k
    decreases n.level - root.level
  {
    if root.level < n.level {
      var parent := Node(n.level - 1, n.idx / 4);
      SubtreeRange(root, parent);
      var k' := Pow4(parent.level - root.level);
      assert Pow4(n.level - root.level) == 4 * k';
      assert root.idx * (4 * k') == 4 * (root.idx * k');
    }
  }

  /** The column decode of `ReverseMortonCode2`: bit `2k` of `x` becomes bit `k`. */
  function EvenBits(x: nat): nat {
    if x == 0 then 0 else x % 2 + 2 * EvenBits(x / 4)
  }

  lemma EvenBitsStep(x: nat)
    ensures EvenBits(x) == x % 2 + 2 * EvenBits(x / 4)
  {
  }

  /** Column and row of a quad within its level. */
  function QuadX(idx: nat): nat {
    EvenBits(idx)
  }

  function QuadY(idx: nat): nat {
    EvenBits(idx / 2)
  }

  /** A child's coordinates are twice its parent's plus its offset in the
      2 x 2 block (Z order: bit 0 is the column, bit 1 the row). */
  lemma ChildCoords(idx: nat)
    ensures QuadX(idx) == idx % 2 + 2 * QuadX(idx / 4)
    ensures QuadY(idx) == idx / 2 % 2 + 2 * QuadY(idx / 4)
  {
    EvenBitsStep(idx / 2);
    assert idx / 2 / 4 == idx / 4 / 2;
  }

  /** Level `L` is a `2^L x 2^L` grid of quads. */
  lemma {:induction false} CoordsBound(idx: nat, L: nat)
    requires idx < Pow4(L)
    ensures QuadX(idx) < Pow2(L) && QuadY(idx) < Pow2(L)
  {
    ChildCoords(idx);
    if L > 0 {
      CoordsBound(idx / 4, L - 1);
    } else {
      assert idx == 0;
    }
  }

  /** Distinct indices decode to distinct (column, row) pairs. */
  lemma {:induction false} CoordsInjective(a: nat, b: nat)
    requires QuadX(a) == QuadX(b) && QuadY(a) == QuadY(b)
    ensures a == b
    decreases a + b
  {
    if a != 0 || b != 0 {
      ChildCoords(a);
      ChildCoords(b);
      Base4Digits(a);
      Base4Digits(b);
      DigitEq(a % 2, QuadX(a / 4), b % 2, QuadX(b / 4));
      DigitEq(a / 2 % 2, QuadY(a / 4), b / 2 % 2, QuadY(b / 4));
      CoordsInjective(a / 4, b / 4);
    }
  }

  /** A binary digit and the value above it are read back from `d + 2 * x`. */
  lemma DigitEq(d: nat, x: nat, e: nat, y: nat)
    requires d < 2 && e < 2 && d + 2 * x == e + 2 * y
    ensures d == e && x == y
  {
  }

  /** An index is its base-4 prefix followed by its two low bits. */
  lemma Base4Digits(a: nat)
    ensures a == 4 * (a / 4) + 2 * (a / 2 % 2) + a % 2
    ensures a / 2 % 2 < 2 && a % 2 < 2 && a / 4 < a + 1
  {
    var q, r := a / 4, a % 4;
    assert a == 4 * q + r;
    if r == 0 {
      assert a / 2 == 2 * q && a % 2 == 0;
    } else if r == 1 {
      assert a / 2 == 2 * q && a % 2 == 1;
    } else if r == 2 {
      assert a / 2 == 2 * q + 1 && a % 2 == 0;
    } else {
      assert a / 2 == 2 * q + 1 && a % 2 == 1;
    }
  }

  /** `ReverseMortonCode2` as written: compact the even bits of a 32-bit
      value into a 16-bit coordinate. */
  function ReverseMortonCode2(x0: bv32): (r: bv32)
    ensures r <= 0xFFFF
  {
    var x1 := x0 & 0x55555555;
    var x2 := (x1 ^ (x1 >> 1)) & 0x33333333;
    var x3 := (x2 ^ (x2 >> 2)) & 0x0f0f0f0f;
    var x4 := (x3 ^ (x3 >> 4)) & 0x00ff00ff;
    (x4 ^ (x4 >> 8)) & 0x0000ffff
  }

  /** The 32-bit decode satisfies the recurrence that defines `EvenBits`:
      the low bit comes from bit 0, the rest from the value shifted by 2. */
  lemma ReverseMortonStep(x: bv32)
    ensures ReverseMortonCode2(x) == (x & 1) | (ReverseMortonCode2(x >> 2) << 1)
  {
  }

  /** The inverse of the decode: spread the low 16 bits of `a` to the even
      bit positions. */
  function Spread(a: bv32): bv32 {
    var a1 := a & 0x0000ffff;
    var a2 := (a1 | (a1 << 8)) & 0x00ff00ff;
    var a3 := (a2 | (a2 << 4)) & 0x0f0f0f0f;
    var a4 := (a3 | (a3 << 2)) & 0x33333333;
    (a4 | (a4 << 1)) & 0x55555555
  }

  /** The Morton index of the quad at column `col` and row `row`. */
  function Interleave(col: bv32, row: bv32): bv32 {
    Spread(col) | (Spread(row) << 1)
  }

  /** Decoding a quad index into its column (`ReverseMortonCode2(i)`) and row
      (`ReverseMortonCode2(i >> 1)`) loses nothing: interleaving them gives
      the index back. */
  lemma MortonRoundTrip(x: bv32)
    ensures Interleave(ReverseMortonCode2(x), ReverseMortonCode2(x >> 1)) == x
  {
  }

  /** And every 16-bit column and row pair is the decode of its interleaving. */
  lemma MortonDecodeInterleave(col: bv32, row: bv32)
    requires col <= 0xFFFF && row <= 0xFFFF
    ensures ReverseMortonCode2(Interleave(col, row)) == col
    ensures ReverseMortonCode2(Interleave(col, row) >> 1) == row
  {
  }

  /** Tiles per side of a level-`L` quad in a `dim x dim` tile domain:
      `dim >> L`, halving once per level. */
  function QuadSide(dim: nat, L: nat): nat {
    if L == 0 then dim else QuadSide(dim, L - 1) / 2
  }

  lemma {:induction false} QuadSidePow(top: nat, L: nat)
    requires L <= top
    ensures QuadSide(Pow2(top), L) == Pow2(top - L)
  {
    if L > 0 {
      QuadSidePow(top, L - 1);
      assert Pow2(top - (L - 1)) == 2 * Pow2(top - L);
    }
  }

  /** First tile column and row of a quad. The `MulNat` call hands the
      solver the sign of the product for the `nat` result, so that it does
      not search for it through nonlinear arithmetic. */
  function TileX(dim: nat, n: Node): nat {
    MulNat(QuadX(n.idx), QuadSide(dim, n.level));
    QuadX(n.idx) * QuadSide(dim, n.level)
  }

  function TileY(dim: nat, n: Node): nat {
    MulNat(QuadY(n.idx), QuadSide(dim, n.level));
    QuadY(n.idx) * QuadSide(dim, n.level)
  }

  lemma MulNat(x: nat, y: nat)
    ensures x * y >= 0
  {
  }

  /** The half-open intervals `[a, a + w)` and `[b, b + v)` do not meet. */
  predicate Apart(a: nat, w: nat, b: nat, v: nat) {
    a + w <= b || b + v <= a
  }

  /** `[a, a + w)` lies inside `[b, b + v)`. */
  predicate Within(a: nat, w: nat, b: nat, v: nat) {
    b <= a && a + w <= b + v
  }

  lemma MulBetween(c: nat, a: nat, s: nat)
    requires c < 2
    ensures a * (2 * s) <= (c + 2 * a) * s
    ensures (c + 2 * a) * s + s <= a * (2 * s) + 2 * s
  {
    assert (c + 2 * a) * s == c * s + 2 * (a * s);
    assert a * (2 * s) == 2 * (a * s);
    if c == 0 {
      assert c * s == 0;
    } else {
      assert c * s == s;
    }
  }

  /** A quad's tiles lie inside its parent's. */
  lemma ChildWithinParent(top: nat, n: Node)
    requires 0 < n.level <= top
    ensures var p := Node(n.level - 1, n.idx / 4);
            var s := QuadSide(Pow2(top), n.level);
            var ps := QuadSide(Pow2(top), p.level);
            && Within(TileX(Pow2(top), n), s, TileX(Pow2(top), p), ps)
            && Within(TileY(Pow2(top), n), s, TileY(Pow2(top), p), ps)
  {
    var s := QuadSide(Pow2(top), n.level);
    QuadSidePow(top, n.level);
    QuadSidePow(top, n.level - 1);
    assert QuadSide(Pow2(top), n.level - 1) == 2 * s by {
      assert top - (n.level - 1) == (top - n.level) + 1;
    }
    ChildCoords(n.idx);
    Base4Digits(n.idx);
    var p := Node(n.level - 1, n.idx / 4);
    assert TileX(Pow2(top), n) == (n.idx % 2 + 2 * QuadX(p.idx)) * s;
    assert TileX(Pow2(top), p) == QuadX(p.idx) * (2 * s);
    MulBetween(n.idx % 2, QuadX(p.idx), s);
    assert TileY(Pow2(top), n) == (n.idx / 2 % 2 + 2 * QuadY(p.idx)) * s;
    assert TileY(Pow2(top), p) == QuadY(p.idx) * (2 * s);
    MulBetween(n.idx / 2 % 2, QuadY(p.idx), s);
  }

  /** A quad's tiles lie inside every ancestor's. */
  lemma {:induction false} WithinAncestor(top: nat, n: Node, J: nat)
    requires J <= n.level <= top
    ensures var a := Ancestor(n, J);
            var s := QuadSide(Pow2(top), n.level);
            var outer := QuadSide(Pow2(top), J);
            && Within(TileX(Pow2(top), n), s, TileX(Pow2(top), a), outer)
            && Within(TileY(Pow2(top), n), s, TileY(Pow2(top), a), outer)
    decreases n.level - J
  {
    if J < n.level {
      ChildWithinParent(top, n);
      WithinAncestor(top, Node(n.level - 1, n.idx / 4), J);
    }
  }

  /** Every quad of the tree lies inside the `dim x dim` domain. */
  lemma InDomain(top: nat, n: Node)
    requires InTree(n, top + 1)
    ensures TileX(Pow2(top), n) + QuadSide(Pow2(top), n.level) <= Pow2(top)
    ensures TileY(Pow2(top), n) + QuadSide(Pow2(top), n.level) <= Pow2(top)
  {
    var s := QuadSide(Pow2(top), n.level);
    QuadSidePow(top, n.level);
    Pow2Add(n.level, top - n.level);
    CoordsBound(n.idx, n.level);
    MulMono(QuadX(n.idx) + 1, Pow2(n.level), s);
    MulMono(QuadY(n.idx) + 1, Pow2(n.level), s);
    assert (QuadX(n.idx) + 1) * s == QuadX(n.idx) * s + s;
    assert (QuadY(n.idx) + 1) * s == QuadY(n.idx) * s + s;
    assert Pow2(top) == Pow2(n.level) * s by {
      assert n.level + (top - n.level) == top;
    }
  }

  lemma MulMono(a: nat, b: nat, s: nat)
    requires a <= b
    ensures a * s <= b * s
  {
  }

  lemma MulApart(a: nat, b: nat, s: nat)
    requires a != b
    ensures Apart(a * s, s, b * s, s)
  {
    if a < b {
      assert (a + 1) * s <= b * s;
    } else {
      assert (b + 1) * s <= a * s;
    }
  }

  /** Two different quads of one level share no tile. */
  lemma SameLevelApart(top: nat, a: Node, b: Node)
    requires a.level == b.level && a != b
    ensures var s := QuadSide(Pow2(top), a.level);
            || Apart(TileX(Pow2(top), a), s, TileX(Pow2(top), b), s)
            || Apart(TileY(Pow2(top), a), s, TileY(Pow2(top), b), s)
  {
    var s := QuadSide(Pow2(top), a.level);
    if QuadX(a.idx) != QuadX(b.idx) {
      MulApart(QuadX(a.idx), QuadX(b.idx), s);
    } else if QuadY(a.idx) != QuadY(b.idx) {
      MulApart(QuadY(a.idx), QuadY(b.idx), s);
    } else {
      CoordsInjective(a.idx, b.idx);
    }
  }

  /** Quads that are not nested one in the other share no tile. */
  lemma UnrelatedApart(top: nat, a: Node, b: Node)
    requires a.level <= top && b.level <= top
    requires !Related(a, b)
    ensures || Apart(TileX(Pow2(top), a), QuadSide(Pow2(top), a.level), TileX(Pow2(top), b), QuadSide(Pow2(top), b.level))
            || Apart(TileY(Pow2(top), a), QuadSide(Pow2(top), a.level), TileY(Pow2(top), b), QuadSide(Pow2(top), b.level))
  {
    if a.level <= b.level {
      WithinAncestor(top, b, a.level);
      SameLevelApart(top, a, Ancestor(b, a.level));
    } else {
      WithinAncestor(top, a, b.level);
      SameLevelApart(top, b, Ancestor(a, b.level));
    }
  }
}

=== FILE: rect_allocator.dfy ===
/** The quad-tree square packer (GPUScene.RectAllocator).

    A `dim x dim` tile domain (`dim` a power of two) is cut into a quad tree
    whose occupancy is one flat bitset: a quad's bit is set when the quad is
    allocated, lies inside an allocated quad, or contains one. Allocation
    records live in a slot table whose indices are the handles.

    Rectangles are kept in texels: the source stores them as the float
    `UVScaleBias`, which is these integers times `TexelSize = 1 / DimInTexels`.
 */
module RectAlloc {
  import Bits
  import Sparse
  import opened QuadTree
  import opened QuadMarks

  /** One more than the largest `uint`. */
  const UintLimit: nat := 0x1_0000_0000

  /** One allocation: its level, its flat quad index, and its rectangle in
      texels (size, then position of the top-left corner). */
  datatype SubAllocInfo = SubAllocInfo(level: nat, quadIdx: nat, sizeX: nat, sizeY: nat, posX: nat, posY: nat)

  datatype RectAllocator = RectAllocator(
    tileSize: nat,
    borderSize: nat,
    dimInTiles: nat,
    levelOffsets: seq<nat>,
    marker: Bits.BitArray,
    subAllocs: Sparse.SparseArray<SubAllocInfo>)

  /** What `Alloc` reports: a handle, the source's `INDEX_NONE` (`~0u`) when
      the level is full, or the exception the source raises when the request
      has no level (an out-of-range `LevelOffsets` index, or a division by a
      zero tile size). */
  datatype AllocResult = Allocated(handle: nat) | NoSpace | Throws

  function TileSizeWithBorder(a: RectAllocator): nat {
    a.tileSize + 2 * a.borderSize
  }

  function DimInTexels(a: RectAllocator): nat {
    a.dimInTiles * TileSizeWithBorder(a)
  }

  /** The quad a record occupies. */
  function NodeOf(info: SubAllocInfo): Node {
    NodeAt(info.quadIdx)
  }

  /** Handle `h` names a record that has not been freed. */
  predicate Live(s: Sparse.SparseArray<SubAllocInfo>, h: nat) {
    h < |s.data| && Sparse.IsLive(s, h)
  }

  /** Some live allocation is nested with `x` (inside it, or around it). */
  predicate Occupied(s: Sparse.SparseArray<SubAllocInfo>, x: Node) {
    exists h | 0 <= h < |s.data| :: Live(s, h) && Related(x, NodeOf(s.data[h]))
  }

  /** No live allocation is nested in another. */
  predicate Disjoint(s: Sparse.SparseArray<SubAllocInfo>) {
    forall h, g | 0 <= h < |s.data| && 0 <= g < |s.data| && Live(s, h) && Live(s, g) && h != g ::
       !Related(NodeOf(s.data[h]), NodeOf(s.data[g]))
  }

  /** The bitset's meaning: a quad's bit is set exactly when it is occupied. */
  predicate Occupancy(m: Bits.BitArray, s: Sparse.SparseArray<SubAllocInfo>) {
    forall i | 0 <= i < m.count :: Bit(m, i) == Occupied(s, NodeAt(i))
  }

  /** A record as `Alloc` writes it: a quad of the tree at the recorded
      level, a size that fits the quad's tiles, and a position one border
      inside the quad's first tile. */
  predicate RecordOk(a: RectAllocator, info: SubAllocInfo) {
    var n := NodeOf(info);
    && info.quadIdx < Offset(|a.levelOffsets|)
    && n.level == info.level
    && info.sizeX <= QuadSide(a.dimInTiles, n.level) * a.tileSize
    && info.sizeY <= QuadSide(a.dimInTiles, n.level) * a.tileSize
    && info.posX == TexelPos(a, TileX(a.dimInTiles, n))
    && info.posY == TexelPos(a, TileY(a.dimInTiles, n))
  }

  /** Where a quad starting at tile `tile` puts its rectangle: one border
      inside the tile's first texel. */
  function TexelPos(a: RectAllocator, tile: nat): nat {
    tile * TileSizeWithBorder(a) + a.borderSize
  }

  /** The tree covers a `dimInTiles x dimInTiles` domain, `dimInTiles` a
      power of two no larger than `2^15`, with one level per power of two. */
  predicate TreeShape(a: RectAllocator) {
    1 <= |a.levelOffsets| && a.dimInTiles == Pow2(|a.levelOffsets| - 1) <= 0x8000
  }

  /** What the allocator keeps true between calls. */
  predicate Inv(a: RectAllocator) {
    && TreeShape(a)
    && Layout(a.levelOffsets, a.marker)
    && Sparse.Valid(a.subAllocs)
    && (forall h | 0 <= h < |a.subAllocs.data| :: RecordOk(a, a.subAllocs.data[h]))
    && Disjoint(a.subAllocs)
    && Occupancy(a.marker, a.subAllocs)
  }

  /** `DivideRoundUp` with the source's 32-bit sum: the ceiling of the
      quotient, unless the sum wraps, in which case the result is 0. */
  function DivideRoundUp(numerator: nat, denominator: nat): (r: nat)
    requires numerator < UintLimit && 0 < denominator < UintLimit
    ensures numerator + denominator - 1 < UintLimit ==>
              numerator <= r * denominator < numerator + denominator
    ensures numerator + denominator - 1 >= UintLimit ==> r == 0
  {
    DivideRoundUpBounds(numerator, denominator);
    (numerator + denominator - 1) % UintLimit / denominator
  }

  lemma DivideRoundUpBounds(n: nat, d: nat)
    requires n < UintLimit && 0 < d < UintLimit
    ensures n + d - 1 < UintLimit ==> n <= ((n + d - 1) % UintLimit / d) * d < n + d
    ensures n + d - 1 >= UintLimit ==> (n + d - 1) % UintLimit / d == 0
  {
    var t := n + d - 1;
    if t < UintLimit {
      assert t % UintLimit == t;
      var q := t / d;
      assert q * d + t % d == t;
    } else {
      assert t % UintLimit == t - UintLimit;
    }
  }

  /** `math.ceillog2` on a `uint`: the least `k` with `2^k >= x`, and 32 for
      0 (the library's `32 - lzcnt(x - 1)` with `x - 1` wrapping). */
  function CeilLog2(x: nat): (r: nat)
    ensures x == 0 ==> r == 32
    ensures x >= 1 ==> x <= Pow2(r) && (r == 0 || Pow2(r - 1) < x)
    decreases x
  {
    if x == 0 then 32
    else if x == 1 then 0
    else 1 + CeilLog2((x + 1) / 2)
  }

  /** The level `Alloc` picks for a square of `numTiles` tiles per side in a
      tree of `numLevels` levels: the finest whose quads are wide enough.
      A negative result is the source's unsigned wrap-around, which then
      indexes `LevelOffsets` out of range. */
  function LevelFor(numLevels: nat, numTiles: nat): (r: int)
    requires 1 <= numLevels <= 32
    ensures r < numLevels
    ensures r >= 0 <==> 1 <= numTiles <= Pow2(numLevels - 1)
    ensures r >= 0 ==> numTiles <= Pow2(numLevels - 1 - r)
    ensures 0 <= r < numLevels - 1 ==> Pow2(numLevels - 2 - r) < numTiles
  {
    CeilLog2Compare(numTiles, numLevels - 1);
    numLevels - CeilLog2(numTiles) - 1
  }

  /** `ceillog2(x) <= k` exactly when `x <= 2^k`, for positive `x`. */
  lemma CeilLog2Compare(x: nat, k: nat)
    ensures x >= 1 ==> (CeilLog2(x) <= k <==> x <= Pow2(k))
  {
    var c := CeilLog2(x);
    if x == 0 {
    } else if c < k {
      Pow2Monotone(c, k);
    } else if c > k + 1 {
      Pow2Monotone(k, c - 1);
    }
  }

  /** `d` is a power of two. */
  predicate IsPow2(d: nat)
    decreases d
  {
    d == 1 || (d >= 2 && d % 2 == 0 && IsPow2(d / 2))
  }

  function Log2(d: nat): nat {
    if d <= 1 then 0 else 1 + Log2(d / 2)
  }

  lemma {:induction false} IsPow2Log2(d: nat)
    requires IsPow2(d)
    ensures d == Pow2(Log2(d))
  {
    if d > 1 {
      IsPow2Log2(d / 2);
    }
  }

  /** The tree over a `dim x dim` domain, `dim <= 2^15`, has at most
      `(4 * 2^30 - 1) / 3` quads, which a 32-bit `count` holds. */
  lemma {:induction false} TreeFits(top: nat)
    requires Pow2(top) <= 0x8000
    ensures Offset(top + 1) <= Bits.MaxCount
  {
    OffsetClosedForm(top + 1);
    Pow4IsSquare(top);
    MulMono(Pow2(top), 0x8000, Pow2(top));
    MulMono(Pow2(top), 0x8000, 0x8000);
  }

  /** One pass of the constructor's loop: the next level has twice the
      quads per side and starts after this level's `side * side` quads. */
  lemma {:induction false} LevelStep(k: nat, side: nat, numBits: nat)
    requires side == Pow2(k) && numBits == Offset(k)
    ensures side * 2 == Pow2(k + 1) && numBits + side * side == Offset(k + 1)
  {
    Pow4IsSquare(k);
  }

  /** Powers of two are ordered as their exponents. */
  lemma Pow2Order(a: nat, b: nat)
    ensures Pow2(a) <= Pow2(b) <==> a <= b
  {
    if a < b {
      Pow2Monotone(a, b);
    } else if b < a {
      Pow2Monotone(b, a);
    }
  }

  /** The constructor: one level per power of two up to `dimInTiles`, each
      level's offset the number of quads in the coarser ones, and a bitset
      of one clear bit per quad. The source's loop counter is a `uint`: at
      `dimInTiles >= 2^31` it would wrap and never stop, and beyond `2^15`
      the bit count would not fit its 32-bit `count`. */
  method New(tileSize: nat, borderSize: nat, dimInTiles: nat) returns (a: RectAllocator)
    requires IsPow2(dimInTiles) && dimInTiles <= 0x8000
    ensures Inv(a)
    ensures a.tileSize == tileSize && a.borderSize == borderSize && a.dimInTiles == dimInTiles
    ensures |a.levelOffsets| == Log2(dimInTiles) + 1
    ensures forall L {:trigger a.levelOffsets[L]} | 0 <= L < |a.levelOffsets| :: a.levelOffsets[L] == Offset(L)
    ensures a.marker.count == Offset(|a.levelOffsets|)
    ensures forall i | 0 <= i < a.marker.count :: !Bit(a.marker, i)
    ensures a.subAllocs.data == [] && a.subAllocs.freeSlots == []
  {
    var top := Log2(dimInTiles);
    IsPow2Log2(dimInTiles);
    var offsets, numBits := LevelOffsets(dimInTiles, top);
    LevelsFit(top);
    var marker := Bits.AddRunFilled(Bits.Empty, false, numBits);
    a := RectAllocator(tileSize, borderSize, dimInTiles, offsets, marker, Sparse.Empty());
    EmptyInv(a);
  }

  /** The constructor's loop: the offset of every level, and the total
      number of quads. */
  method LevelOffsets(dimInTiles: nat, top: nat) returns (offsets: seq<nat>, numBits: nat)
    requires dimInTiles == Pow2(top)
    ensures |offsets| == top + 1 && numBits == Offset(top + 1)
    ensures forall L {:trigger offsets[L]} | 0 <= L < |offsets| :: offsets[L] == Offset(L)
  {
    offsets := [];
    numBits := 0;
    var level := 1;
    while level <= dimInTiles
      invariant level == Pow2(|offsets|) && numBits == Offset(|offsets|)
      invariant forall L {:trigger offsets[L]} | 0 <= L < |offsets| :: offsets[L] == Offset(L)
      invariant |offsets| <= top + 1
      decreases dimInTiles + 1 - level
    {
      Pow2Order(|offsets|, top);
      LevelStep(|offsets|, level, numBits);
      offsets := offsets + [numBits];
      numBits := numBits + level * level;
      level := level * 2;
    }
    Pow2Order(|offsets|, top);
  }

  /** A domain of at most `2^15` tiles per side has at most 16 levels, and
      its quads fit a 32-bit bit count. */
  lemma LevelsFit(top: nat)
    requires Pow2(top) <= 0x8000
    ensures top < 16 && Offset(top + 1) <= Bits.MaxCount
  {
    TreeFits(top);
    Pow2Add(1, 1);
    Pow2Add(2, 2);
    Pow2Add(4, 4);
    Pow2Add(8, 8);
    Pow2Order(16, top);
  }

  /** A tree of at most `2^15` tiles per side has at most 16 levels. */
  lemma LevelCount(a: RectAllocator)
    requires TreeShape(a)
    ensures |a.levelOffsets| <= 16
  {
    LevelsFit(|a.levelOffsets| - 1);
  }

  /** An allocator with no records and a clear bitset over its tree is valid. */
  lemma EmptyInv(a: RectAllocator)
    requires TreeShape(a)
    requires Bits.Valid(a.marker) && a.marker.count == Offset(|a.levelOffsets|)
    requires forall L {:trigger a.levelOffsets[L]} | 0 <= L < |a.levelOffsets| :: a.levelOffsets[L] == Offset(L)
    requires forall i | 0 <= i < a.marker.count :: !Bit(a.marker, i)
    requires a.subAllocs == Sparse.Empty()
    ensures Inv(a)
  {
  }

  function Max(x: nat, y: nat): nat {
    if x >= y then x else y
  }

  /** The level `Alloc` sends a `sizeX x sizeY` texel request to: the square
      of `ceil(max(sizeX, sizeY) / tileSize)` tiles per side goes to the
      finest level whose quads are that wide. Negative where the source
      throws: a zero tile size, or a request with no such level. */
  function RequestLevel(a: RectAllocator, sizeX: nat, sizeY: nat): (r: int)
    requires TreeShape(a)
    requires sizeX < UintLimit && sizeY < UintLimit && a.tileSize < UintLimit
    ensures r < |a.levelOffsets|
    ensures r >= 0 <==>
              && a.tileSize > 0
              && Max(sizeX, sizeY) + a.tileSize - 1 < UintLimit
              && 1 <= Max(sizeX, sizeY) <= a.dimInTiles * a.tileSize
    ensures 0 <= r < |a.levelOffsets| - 1 ==>
              QuadSide(a.dimInTiles, r + 1) * a.tileSize < Max(sizeX, sizeY)
  {
    LevelCount(a);
    if a.tileSize == 0 then -1
    else
      RequestLevelBounds(|a.levelOffsets|, Max(sizeX, sizeY), a.tileSize);
      LevelFor(|a.levelOffsets|, DivideRoundUp(Max(sizeX, sizeY), a.tileSize))
  }

  /** The level facts `RequestLevel` promises, for an `m`-texel request with
      `t`-texel tiles in an `N`-level tree. */
  lemma RequestLevelBounds(N: nat, m: nat, t: nat)
    requires 1 <= N <= 16 && m < UintLimit && 0 < t < UintLimit
    ensures var L := LevelFor(N, DivideRoundUp(m, t));
            && (L >= 0 <==> m + t - 1 < UintLimit && 1 <= m <= Pow2(N - 1) * t)
            && (0 <= L < N - 1 ==> QuadSide(Pow2(N - 1), L + 1) * t < m)
  {
    var c := DivideRoundUp(m, t);
    var L := LevelFor(N, c);
    if m + t - 1 < UintLimit {
      CeilDivCompare(m, t, c, 0);
      CeilDivCompare(m, t, c, Pow2(N - 1));
      if 0 <= L < N - 1 {
        QuadSidePow(N - 1, L + 1);
        CeilDivCompare(m, t, c, QuadSide(Pow2(N - 1), L + 1));
      }
    }
  }

  /** The ceiling `c` of `m / t` is at most `k` exactly when `m` is at most
      `k` whole multiples of `t`. */
  lemma CeilDivCompare(m: nat, t: nat, c: nat, k: nat)
    requires t > 0 && m <= c * t < m + t
    ensures c <= k <==> m <= k * t
  {
    if c <= k {
      MulMono(c, k, t);
    } else {
      MulMono(k + 1, c, t);
    }
  }

  /** A request placed at its level fits in the quad's tiles. */
  lemma RequestFits(a: RectAllocator, sizeX: nat, sizeY: nat)
    requires TreeShape(a)
    requires sizeX < UintLimit && sizeY < UintLimit && a.tileSize < UintLimit
    requires RequestLevel(a, sizeX, sizeY) >= 0
    ensures var L := RequestLevel(a, sizeX, sizeY);
            && 1 <= QuadSide(a.dimInTiles, L)
            && sizeX <= QuadSide(a.dimInTiles, L) * a.tileSize
            && sizeY <= QuadSide(a.dimInTiles, L) * a.tileSize
  {
    var L := RequestLevel(a, sizeX, sizeY);
    var N := |a.levelOffsets|;
    var numTiles := DivideRoundUp(Max(sizeX, sizeY), a.tileSize);
    QuadSidePow(N - 1, L);
    MulMono(numTiles, Pow2(N - 1 - L), a.tileSize);
  }

  /** An unmarked quad is nested with no live allocation. */
  lemma UnmarkedFree(a: RectAllocator, n: Node)
    requires Inv(a) && InTree(n, |a.levelOffsets|)
    requires !Marked(a.marker, n)
    ensures !Occupied(a.subAllocs, n)
  {
    FlatBound(n, |a.levelOffsets|);
    NodeAtFlat(n);
    assert Bit(a.marker, Flat(n)) == Occupied(a.subAllocs, NodeAt(Flat(n)));
  }

  /** A marked quad of the tree is occupied, and an occupied one marked. */
  lemma MarkedOccupied(a: RectAllocator, n: Node)
    requires Inv(a) && InTree(n, |a.levelOffsets|)
    ensures Marked(a.marker, n) <==> Occupied(a.subAllocs, n)
  {
    FlatBound(n, |a.levelOffsets|);
    NodeAtFlat(n);
    assert Bit(a.marker, Flat(n)) == Occupied(a.subAllocs, NodeAt(Flat(n)));
  }

  /** Above an unmarked quad, once one ancestor is marked all coarser ones
      are too: what marks it is an allocation inside it, not around it. */
  lemma MarkedAbove(a: RectAllocator, n: Node, stop: nat, J: nat)
    requires Inv(a) && InTree(n, |a.levelOffsets|) && !Marked(a.marker, n)
    requires J <= stop <= n.level && Marked(a.marker, Ancestor(n, stop))
    ensures Marked(a.marker, Ancestor(n, J))
  {
    var s := a.subAllocs;
    var p := Ancestor(n, stop);
    AncestorInTree(n, stop);
    MarkedOccupied(a, p);
    UnmarkedFree(a, n);
    var g :| 0 <= g < |s.data| && Live(s, g) && Related(p, NodeOf(s.data[g]));
    var y := NodeOf(s.data[g]);
    if IsAncestorOrSelf(y, p) {
      AncestorOrSelfTrans(y, p, n);
      assert false;
    }
    var q := Ancestor(n, J);
    AncestorTrans(n, stop, J);
    AncestorOrSelfTrans(q, p, y);
    AncestorInTree(n, J);
    assert Related(q, y);
    MarkedOccupied(a, q);
  }

  /** While an allocation is live, every quad on its path to the root stays
      marked: a parent is not cleared while one of its children's subtrees
      still holds an allocation. */
  lemma LiveMarksAncestors(a: RectAllocator, g: nat, J: nat)
    requires Inv(a) && Live(a.subAllocs, g)
    requires J <= NodeOf(a.subAllocs.data[g]).level
    ensures Marked(a.marker, Ancestor(NodeOf(a.subAllocs.data[g]), J))
  {
    var y := NodeOf(a.subAllocs.data[g]);
    InvRecordsInTree(a);
    RecordInTree(a.subAllocs, |a.levelOffsets|, g);
    AncestorInTree(y, J);
    AncestorTrans(y, J, J);
    assert Related(Ancestor(y, J), y);
    MarkedOccupied(a, Ancestor(y, J));
  }

  /** The marking done by `Alloc` at an unmarked quad `n` (ancestors up to
      the first marked one, then every descendant) sets exactly the bits of
      the quads nested with `n`. */
  lemma {:induction false} AllocMarker(a: RectAllocator, n: Node, stop: int, m1: Bits.BitArray, m2: Bits.BitArray)
    requires Inv(a) && InTree(n, |a.levelOffsets|) && !Marked(a.marker, n)
    requires -1 <= stop <= n.level && (stop >= 0 ==> Marked(a.marker, Ancestor(n, stop)))
    requires forall i | 0 <= i < a.marker.count ::
               Bit(m1, i) == (Bit(a.marker, i) || (stop < NodeAt(i).level && IsAncestorOrSelf(NodeAt(i), n)))
    requires forall i | 0 <= i < a.marker.count ::
               Bit(m2, i) == if n.level + 1 <= NodeAt(i).level && IsAncestorOrSelf(n, NodeAt(i)) then true else Bit(m1, i)
    ensures forall i | 0 <= i < a.marker.count :: Bit(m2, i) == (Bit(a.marker, i) || Related(NodeAt(i), n))
  {
    forall i | 0 <= i < a.marker.count
      ensures Bit(m2, i) == (Bit(a.marker, i) || Related(NodeAt(i), n))
    {
      var x := NodeAt(i);
      if IsAncestorOrSelf(x, n) && x.level <= stop {
        MarkedAbove(a, n, stop, x.level);
        NodeAtSpec(i, |a.levelOffsets|);
      }
    }
  }

  /** Adding a record occupies exactly the quads nested with its quad. */
  lemma OccupiedAfterAdd(s: Sparse.SparseArray<SubAllocInfo>, info: SubAllocInfo, x: Node)
    requires Sparse.Valid(s) && Sparse.CanAdd(s)
    ensures Occupied(Sparse.Add(s, info).0, x) <==> Occupied(s, x) || Related(x, NodeOf(info))
  {
    var (s1, h) := Sparse.Add(s, info);
    if Occupied(s1, x) {
      var g :| 0 <= g < |s1.data| && Live(s1, g) && Related(x, NodeOf(s1.data[g]));
      if g != h {
        assert Live(s, g);
      }
    }
    if Occupied(s, x) {
      var g :| 0 <= g < |s.data| && Live(s, g) && Related(x, NodeOf(s.data[g]));
      assert Live(s1, g);
    }
    if Related(x, NodeOf(info)) {
      assert Live(s1, h);
    }
  }

  /** Adding a valid record keeps every record valid. */
  lemma RecordsAfterAdd(a: RectAllocator, info: SubAllocInfo)
    requires Sparse.Valid(a.subAllocs) && Sparse.CanAdd(a.subAllocs) && RecordOk(a, info)
    requires forall h | 0 <= h < |a.subAllocs.data| :: RecordOk(a, a.subAllocs.data[h])
    ensures var s1 := Sparse.Add(a.subAllocs, info).0;
            forall g | 0 <= g < |s1.data| :: RecordOk(a, s1.data[g])
  {
    var s := a.subAllocs;
    var (s1, h) := Sparse.Add(s, info);
    forall g | 0 <= g < |s1.data|
      ensures RecordOk(a, s1.data[g])
    {
      if g != h {
        assert RecordOk(a, s.data[g]);
      }
    }
  }

  /** Adding a record at a quad no live allocation is nested with keeps the
      live allocations disjoint. */
  lemma DisjointAfterAdd(s: Sparse.SparseArray<SubAllocInfo>, info: SubAllocInfo)
    requires Sparse.Valid(s) && Sparse.CanAdd(s) && Disjoint(s) && !Occupied(s, NodeOf(info))
    ensures Disjoint(Sparse.Add(s, info).0)
  {
    var (s1, h) := Sparse.Add(s, info);
    forall g1, g2 | 0 <= g1 < |s1.data| && 0 <= g2 < |s1.data| && Live(s1, g1) && Live(s1, g2) && g1 != g2
      ensures !Related(NodeOf(s1.data[g1]), NodeOf(s1.data[g2]))
    {
      if g1 != h && g2 != h {
        assert Live(s, g1) && Live(s, g2);
      } else if g1 == h {
        assert Live(s, g2);
      } else {
        assert Live(s, g1);
      }
    }
  }

  /** Recording an allocation at a free quad, with the bitset marked around
      it, keeps the allocator's invariant. */
  lemma AddKeepsInv(a: RectAllocator, info: SubAllocInfo, m: Bits.BitArray)
    requires Inv(a) && Sparse.CanAdd(a.subAllocs)
    requires RecordOk(a, info) && !Occupied(a.subAllocs, NodeOf(info))
    requires Bits.Valid(m) && m.count == a.marker.count
    requires forall i | 0 <= i < m.count :: Bit(m, i) == (Bit(a.marker, i) || Related(NodeAt(i), NodeOf(info)))
    ensures Inv(a.(marker := m, subAllocs := Sparse.Add(a.subAllocs, info).0))
  {
    RecordsAfterAdd(a, info);
    DisjointAfterAdd(a.subAllocs, info);
    OccupancyAfterAdd(a.marker, a.subAllocs, info, m);
  }

  /** Marking the quads nested with the new record's quad keeps the bitset's
      meaning once the record is added. */
  lemma OccupancyAfterAdd(m0: Bits.BitArray, s: Sparse.SparseArray<SubAllocInfo>, info: SubAllocInfo, m: Bits.BitArray)
    requires Sparse.Valid(s) && Sparse.CanAdd(s) && Occupancy(m0, s)
    requires m.count == m0.count
    requires forall i | 0 <= i < m.count :: Bit(m, i) == (Bit(m0, i) || Related(NodeAt(i), NodeOf(info)))
    ensures Occupancy(m, Sparse.Add(s, info).0)
  {
    var s1 := Sparse.Add(s, info).0;
    forall i | 0 <= i < m.count
      ensures Bit(m, i) == Occupied(s1, NodeAt(i))
    {
      OccupiedAfterAdd(s, info, NodeAt(i));
    }
  }

  /** The record `Alloc` writes for quad `n` at flat index `quadIdx`: the
      quad's column and row decoded from its Morton index, scaled by the
      quad's width in tiles, give its first tile. */
  function NewRecord(a: RectAllocator, n: Node, quadIdx: nat, sizeX: nat, sizeY: nat): (info: SubAllocInfo)
    ensures info.level == n.level && info.quadIdx == quadIdx
    ensures info.sizeX == sizeX && info.sizeY == sizeY
  {
    SubAllocInfo(n.level, quadIdx, sizeX, sizeY,
                 TexelPos(a, TileX(a.dimInTiles, n)), TexelPos(a, TileY(a.dimInTiles, n)))
  }

  lemma NewRecordOk(a: RectAllocator, n: Node, sizeX: nat, sizeY: nat)
    requires TreeShape(a)
    requires sizeX < UintLimit && sizeY < UintLimit && a.tileSize < UintLimit
    requires InTree(n, |a.levelOffsets|) && RequestLevel(a, sizeX, sizeY) == n.level
    ensures NodeOf(NewRecord(a, n, Flat(n), sizeX, sizeY)) == n
    ensures RecordOk(a, NewRecord(a, n, Flat(n), sizeX, sizeY))
  {
    var info := NewRecord(a, n, Flat(n), sizeX, sizeY);
    NodeAtFlat(n);
    FlatBound(n, |a.levelOffsets|);
    RequestFits(a, sizeX, sizeY);
    assert NodeOf(info) == n;
    assert info.posX == TexelPos(a, TileX(a.dimInTiles, n));
    assert info.posY == TexelPos(a, TileY(a.dimInTiles, n));
  }

  /** The two marking loops of `Alloc` at an unmarked quad `n`: afterwards
      the bits set are the old ones and those of every quad nested with `n`. */
  method MarkQuad(a: RectAllocator, n: Node) returns (m: Bits.BitArray)
    requires Inv(a) && InTree(n, |a.levelOffsets|) && !Marked(a.marker, n)
    ensures Bits.Valid(m) && m.count == a.marker.count && |m.words| == |a.marker.words|
    ensures forall i | 0 <= i < m.count :: Bit(m, i) == (Bit(a.marker, i) || Related(NodeAt(i), n))
    ensures forall j: nat | m.count <= j :: Bit(m, j) == Bit(a.marker, j)
  {
    var m1, stop := MarkAncestors(a.marker, a.levelOffsets, n);
    m := SetSubtree(m1, a.levelOffsets, n, n.level + 1, n.idx * 4, 4, true);
    AllocMarker(a, n, stop, m1, m);
  }

  /** The placement half of `Alloc` at a free quad `n` of the request's
      level: mark the bitset around `n`, then record the rectangle. */
  method Place(a: RectAllocator, n: Node, sizeX: nat, sizeY: nat) returns (r: RectAllocator, h: nat)
    requires Inv(a) && a.subAllocs.flags.count < Bits.MaxCount
    requires sizeX < UintLimit && sizeY < UintLimit && a.tileSize < UintLimit
    requires InTree(n, |a.levelOffsets|) && RequestLevel(a, sizeX, sizeY) == n.level
    requires !Marked(a.marker, n)
    ensures Inv(r)
    ensures r.tileSize == a.tileSize && r.borderSize == a.borderSize
    ensures r.dimInTiles == a.dimInTiles && r.levelOffsets == a.levelOffsets
    ensures Live(r.subAllocs, h) && !Live(a.subAllocs, h)
    ensures var s := a.subAllocs;
            && (|s.freeSlots| > 0 ==> h == s.freeSlots[|s.freeSlots| - 1])
            && (|s.freeSlots| == 0 ==> h == |s.data|)
            && (forall g: nat | g != h :: Live(r.subAllocs, g) == Live(s, g))
            && |s.data| <= |r.subAllocs.data|
            && (forall g | 0 <= g < |s.data| && g != h :: r.subAllocs.data[g] == s.data[g])
    ensures r.subAllocs.data[h] == SubAllocInfo(n.level, Flat(n), sizeX, sizeY,
                                                TexelPos(a, TileX(a.dimInTiles, n)), TexelPos(a, TileY(a.dimInTiles, n)))
    ensures NodeOf(r.subAllocs.data[h]) == n
    ensures forall i | 0 <= i < a.marker.count :: Bit(r.marker, i) == (Bit(a.marker, i) || Related(NodeAt(i), n))
    ensures forall j: nat | a.marker.count <= j :: Bit(r.marker, j) == Bit(a.marker, j)
  {
    var m := MarkQuad(a, n);
    r, h := Record(a, m, n, sizeX, sizeY);
  }

  /** The recording half of `Place`: add the record for `n` to the slot
      table, with `m` the bitset already marked around `n`. */
  method Record(a: RectAllocator, m: Bits.BitArray, n: Node, sizeX: nat, sizeY: nat) returns (r: RectAllocator, h: nat)
    requires Inv(a) && a.subAllocs.flags.count < Bits.MaxCount
    requires sizeX < UintLimit && sizeY < UintLimit && a.tileSize < UintLimit
    requires InTree(n, |a.levelOffsets|) && RequestLevel(a, sizeX, sizeY) == n.level
    requires !Marked(a.marker, n)
    requires Bits.Valid(m) && m.count == a.marker.count && |m.words| == |a.marker.words|
    requires forall i | 0 <= i < m.count :: Bit(m, i) == (Bit(a.marker, i) || Related(NodeAt(i), n))
    ensures Inv(r) && r.marker == m
    ensures r.tileSize == a.tileSize && r.borderSize == a.borderSize
    ensures r.dimInTiles == a.dimInTiles && r.levelOffsets == a.levelOffsets
    ensures Live(r.subAllocs, h) && !Live(a.subAllocs, h)
    ensures var s := a.subAllocs;
            && (|s.freeSlots| > 0 ==> h == s.freeSlots[|s.freeSlots| - 1])
            && (|s.freeSlots| == 0 ==> h == |s.data|)
            && (forall g: nat | g != h :: Live(r.subAllocs, g) == Live(s, g))
            && |s.data| <= |r.subAllocs.data|
            && (forall g | 0 <= g < |s.data| && g != h :: r.subAllocs.data[g] == s.data[g])
    ensures r.subAllocs.data[h] == NewRecord(a, n, Flat(n), sizeX, sizeY)
    ensures NodeOf(r.subAllocs.data[h]) == n
  {
    var info := NewRecord(a, n, Flat(n), sizeX, sizeY);
    NewRecordOk(a, n, sizeX, sizeY);
    UnmarkedFree(a, n);
    AddKeepsInv(a, info, m);
    LiveAfterAdd(a.subAllocs, info);
    var subs;
    subs, h := Sparse.Add(a.subAllocs, info).0, Sparse.Add(a.subAllocs, info).1;
    r := a.(marker := m, subAllocs := subs);
  }

  /** Which slot `Add` fills, and that it leaves every other slot as it was. */
  lemma LiveAfterAdd(s: Sparse.SparseArray<SubAllocInfo>, info: SubAllocInfo)
    requires Sparse.Valid(s) && Sparse.CanAdd(s)
    ensures var (s1, h) := Sparse.Add(s, info);
            && Live(s1, h) && !Live(s, h) && s1.data[h] == info
            && (|s.freeSlots| > 0 ==> h == s.freeSlots[|s.freeSlots| - 1])
            && (|s.freeSlots| == 0 ==> h == |s.data|)
            && (forall g: nat | g != h :: Live(s1, g) == Live(s, g))
            && |s.data| <= |s1.data|
            && (forall g | 0 <= g < |s.data| && g != h :: s1.data[g] == s.data[g])
  {
  }

  /** `Alloc`: first-fit placement of a `sizeX x sizeY` texel square. */
  method Alloc(a: RectAllocator, sizeX: nat, sizeY: nat) returns (r: RectAllocator, res: AllocResult)
    requires Inv(a)
    requires sizeX < UintLimit && sizeY < UintLimit && a.tileSize < UintLimit
    requires a.subAllocs.flags.count < Bits.MaxCount
    ensures Inv(r)
    ensures r.tileSize == a.tileSize && r.borderSize == a.borderSize
    ensures r.dimInTiles == a.dimInTiles && r.levelOffsets == a.levelOffsets
    ensures res == Throws <==> RequestLevel(a, sizeX, sizeY) < 0
    ensures !res.Allocated? ==> r == a
    ensures res == NoSpace ==>
              var L := RequestLevel(a, sizeX, sizeY);
              L >= 0 && forall k | 0 <= k < Pow4(L) :: Marked(a.marker, Node(L, k))
    ensures res.Allocated? ==> Live(r.subAllocs, res.handle) && !Live(a.subAllocs, res.handle)
    ensures res.Allocated? ==>
              var h := res.handle;
              var s := a.subAllocs;
              && (|s.freeSlots| > 0 ==> h == s.freeSlots[|s.freeSlots| - 1])
              && (|s.freeSlots| == 0 ==> h == |s.data|)
              && (forall g: nat | g != h :: Live(r.subAllocs, g) == Live(s, g))
              && |s.data| <= |r.subAllocs.data|
              && (forall g | 0 <= g < |s.data| && g != h :: r.subAllocs.data[g] == s.data[g])
    ensures res.Allocated? ==>
              var info := r.subAllocs.data[res.handle];
              var n := NodeOf(info);
              && n.level == RequestLevel(a, sizeX, sizeY)
              && !Marked(a.marker, n)
              && (forall k | 0 <= k < n.idx :: Marked(a.marker, Node(n.level, k)))
              && info == SubAllocInfo(n.level, Flat(n), sizeX, sizeY,
                                      TexelPos(a, TileX(a.dimInTiles, n)), TexelPos(a, TileY(a.dimInTiles, n)))
              && (forall i | 0 <= i < a.marker.count :: Bit(r.marker, i) == (Bit(a.marker, i) || Related(NodeAt(i), n)))
              && (forall j: nat | a.marker.count <= j :: Bit(r.marker, j) == Bit(a.marker, j))
  {
    if a.tileSize == 0 {
      return a, Throws;
    }
    var numTiles1D := DivideRoundUp(Max(sizeX, sizeY), a.tileSize);
    var numLevels := |a.levelOffsets|;
    LevelCount(a);
    var level := LevelFor(numLevels, numTiles1D);
    if level < 0 {
      return a, Throws;
    }
    var found, n := FirstFit(a.marker, a.levelOffsets, level);
    if !found {
      return a, NoSpace;
    }
    var h;
    r, h := Place(a, n, sizeX, sizeY);
    res := Allocated(h);
  }

  /** Every record, live or freed, names a quad of a tree of `levels` levels. */
  predicate RecordsInTree(s: Sparse.SparseArray<SubAllocInfo>, levels: nat) {
    forall h | 0 <= h < |s.data| :: s.data[h].quadIdx < Offset(levels)
  }

  lemma RecordInTree(s: Sparse.SparseArray<SubAllocInfo>, levels: nat, h: nat)
    requires RecordsInTree(s, levels) && h < |s.data|
    ensures InTree(NodeOf(s.data[h]), levels)
    ensures Flat(NodeOf(s.data[h])) == s.data[h].quadIdx
  {
    NodeAtSpec(s.data[h].quadIdx, levels);
  }

  /** Freeing slot `h` can only empty quads, and leaves alone the ones not
      nested with the freed record's quad. */
  lemma OccupiedAfterFree(s: Sparse.SparseArray<SubAllocInfo>, h: nat, x: Node)
    requires h < |s.data| && h / 32 < |s.flags.words|
    ensures Occupied(Sparse.Free(s, h), x) ==> Occupied(s, x)
    ensures !Related(x, NodeOf(s.data[h])) ==> (Occupied(Sparse.Free(s, h), x) <==> Occupied(s, x))
  {
    var s1 := Sparse.Free(s, h);
    if Occupied(s1, x) {
      var g :| 0 <= g < |s1.data| && Live(s1, g) && Related(x, NodeOf(s1.data[g]));
      assert Live(s, g);
    }
    if Occupied(s, x) && !Related(x, NodeOf(s.data[h])) {
      var g :| 0 <= g < |s.data| && Live(s, g) && Related(x, NodeOf(s.data[g]));
      assert Live(s1, g);
    }
  }

  /** Once a live record is freed, nothing is nested with any quad inside
      its quad. */
  lemma SubtreeFreed(s: Sparse.SparseArray<SubAllocInfo>, h: nat, x: Node)
    requires Disjoint(s) && Live(s, h)
    requires IsAncestorOrSelf(NodeOf(s.data[h]), x)
    ensures !Occupied(Sparse.Free(s, h), x)
  {
    var s1 := Sparse.Free(s, h);
    var n := NodeOf(s.data[h]);
    if Occupied(s1, x) {
      var g :| 0 <= g < |s1.data| && Live(s1, g) && Related(x, NodeOf(s1.data[g]));
      var y := NodeOf(s.data[g]);
      assert Live(s, g) && g != h;
      if IsAncestorOrSelf(x, y) {
        AncestorOrSelfTrans(n, x, y);
      } else {
        CommonDescendantRelated(n, y, x);
      }
      assert false;
    }
  }

  /** The two loops of `Free` for a record at quad `n`, taking bitset `m0`
      to `m`: the subtree of `n` cleared, then the ancestors of `n` above
      level `stop`; the ancestor at `stop`, if any, has a set child. */
  predicate FreeMarks(m0: Bits.BitArray, n: Node, m: Bits.BitArray, stop: int) {
    && Bits.Valid(m) && m.count == m0.count
    && -1 <= stop < n.level
    && (forall i | 0 <= i < m0.count ::
          Bit(m, i) == (Bit(m0, i)
                        && !(n.level <= NodeAt(i).level && IsAncestorOrSelf(n, NodeAt(i)))
                        && !(stop < NodeAt(i).level < n.level && IsAncestorOrSelf(NodeAt(i), n))))
    && EmptyParents(m, n, stop)
    && (stop >= 0 ==> !ChildrenClear(m, Ancestor(n, stop)))
  }

  /** The two clearing loops of `Free` at quad `n`: the subtree of `n`,
      then each ancestor from the bottom up while its four children read
      clear. */
  method UnmarkQuad(m0: Bits.BitArray, offsets: seq<nat>, n: Node) returns (m: Bits.BitArray, ghost stop: int)
    requires Layout(offsets, m0) && InTree(n, |offsets|)
    ensures FreeMarks(m0, n, m, stop) && |m.words| == |m0.words|
    ensures !Marked(m, n)
    ensures forall j: nat | m0.count <= j :: Bit(m, j) == Bit(m0, j)
  {
    assert Pow4(n.level - n.level) == 1;
    var m1 := SetSubtree(m0, offsets, n, n.level, n.idx, 1, false);
    m, stop := ClearEmptyParents(m1, offsets, n);
    FlatBound(n, |offsets|);
    NodeAtFlat(n);
  }

  /** What the proofs about `Free` need of the allocator before the call. */
  predicate FreeReady(s: Sparse.SparseArray<SubAllocInfo>, m0: Bits.BitArray, levels: nat, h: nat) {
    && Live(s, h) && Disjoint(s) && RecordsInTree(s, levels)
    && m0.count == Offset(levels) && Occupancy(m0, s)
  }

  /** The marks of `Free` leave the bit of a quad not nested with `n` alone. */
  lemma OffPathBit(m0: Bits.BitArray, n: Node, m: Bits.BitArray, stop: int, levels: nat, c: Node)
    requires FreeMarks(m0, n, m, stop) && m0.count == Offset(levels)
    requires InTree(c, levels) && !Related(c, n)
    ensures Marked(m, c) == Marked(m0, c)
  {
    FlatBound(c, levels);
    NodeAtFlat(c);
    assert Bit(m, Flat(c)) == Bit(m0, Flat(c));
  }

  /** The bitset's meaning at one quad of the tree. */
  lemma OccupancyAt(m0: Bits.BitArray, s: Sparse.SparseArray<SubAllocInfo>, levels: nat, c: Node)
    requires Occupancy(m0, s) && m0.count == Offset(levels) && InTree(c, levels)
    ensures Marked(m0, c) == Occupied(s, c)
  {
    FlatBound(c, levels);
    NodeAtFlat(c);
    assert Bit(m0, Flat(c)) == Occupied(s, NodeAt(Flat(c)));
  }

  /** The ancestors that `Free` clears are indeed free: by induction from
      the freed quad upwards, another live allocation nested with the
      ancestor at level `J` would sit inside one of its four children, which
      read clear. */
  lemma {:induction false} BandFreedAt(s: Sparse.SparseArray<SubAllocInfo>, m0: Bits.BitArray, levels: nat,
                                       h: nat, m: Bits.BitArray, stop: int, J: nat, g: nat)
    requires FreeReady(s, m0, levels, h) && FreeMarks(m0, NodeOf(s.data[h]), m, stop)
    requires stop < J < NodeOf(s.data[h]).level
    requires g < |s.data| && Live(s, g) && g != h
    ensures !Related(Ancestor(NodeOf(s.data[h]), J), NodeOf(s.data[g]))
    decreases NodeOf(s.data[h]).level - J
  {
    var n := NodeOf(s.data[h]);
    var x := Ancestor(n, J);
    var y := NodeOf(s.data[g]);
    assert !Related(n, y);
    if Related(x, y) {
      if IsAncestorOrSelf(y, x) {
        AncestorOrSelfTrans(y, x, n);
        assert false;
      }
      var c := ChildToward(x, y);
      if c == Ancestor(n, J + 1) {
        if J + 1 < n.level {
          BandFreedAt(s, m0, levels, h, m, stop, J + 1, g);
        }
        assert false;
      }
      RecordInTree(s, levels, g);
      AncestorInTree(y, J + 1);
      OffPathChildFree(s, m0, levels, h, m, stop, J, c);
      assert Live(s, g) && Related(c, y);
      assert false;
    }
  }

  lemma BandFreed(s: Sparse.SparseArray<SubAllocInfo>, m0: Bits.BitArray, levels: nat,
                  h: nat, m: Bits.BitArray, stop: int, J: nat)
    requires FreeReady(s, m0, levels, h) && FreeMarks(m0, NodeOf(s.data[h]), m, stop)
    requires stop < J < NodeOf(s.data[h]).level
    ensures !Occupied(Sparse.Free(s, h), Ancestor(NodeOf(s.data[h]), J))
  {
    var s1 := Sparse.Free(s, h);
    if Occupied(s1, Ancestor(NodeOf(s.data[h]), J)) {
      var g :| 0 <= g < |s1.data| && Live(s1, g) && Related(Ancestor(NodeOf(s.data[h]), J), NodeOf(s1.data[g]));
      assert Live(s, g) && g != h;
      BandFreedAt(s, m0, levels, h, m, stop, J, g);
    }
  }

  /** A child of a cleared ancestor that is off the path to the freed quad
      was free before the call: its bit is unchanged, and reads clear. */
  lemma OffPathChildFree(s: Sparse.SparseArray<SubAllocInfo>, m0: Bits.BitArray, levels: nat,
                         h: nat, m: Bits.BitArray, stop: int, J: nat, c: Node)
    requires FreeReady(s, m0, levels, h) && FreeMarks(m0, NodeOf(s.data[h]), m, stop)
    requires stop < J < NodeOf(s.data[h]).level
    requires c == Child(Ancestor(NodeOf(s.data[h]), J), c.idx % 4) && c != Ancestor(NodeOf(s.data[h]), J + 1)
    requires InTree(c, levels)
    ensures !Occupied(s, c)
  {
    var n := NodeOf(s.data[h]);
    OffPath(n, c);
    OffPathBit(m0, n, m, stop, levels, c);
    OccupancyAt(m0, s, levels, c);
    assert ChildrenClear(m, Ancestor(n, J));
  }

  /** The ancestors `Free` leaves marked (level `stop` and coarser) still
      contain a live allocation: the one that marks the child of the
      ancestor at `stop` that stopped the loop. */
  lemma AboveStillOccupied(s: Sparse.SparseArray<SubAllocInfo>, m0: Bits.BitArray, levels: nat,
                           h: nat, m: Bits.BitArray, stop: int, x: Node)
    requires FreeReady(s, m0, levels, h) && FreeMarks(m0, NodeOf(s.data[h]), m, stop)
    requires IsAncestorOrSelf(x, NodeOf(s.data[h])) && x.level <= stop
    requires InTree(NodeOf(s.data[h]), levels)
    ensures Occupied(Sparse.Free(s, h), x)
  {
    var n := NodeOf(s.data[h]);
    var c := StopChild(m0, n, m, stop, levels);
    OccupancyAt(m0, s, levels, c);
    var g :| 0 <= g < |s.data| && Live(s, g) && Related(c, NodeOf(s.data[g]));
    AncestorTrans(n, stop, x.level);
    AncestorOrSelfTrans(x, Ancestor(n, stop), c);
    RelatedThroughAncestor(x, c, NodeOf(s.data[g]));
    assert Live(Sparse.Free(s, h), g);
  }

  /** The child of the ancestor at `stop` that ended `Free`'s upward loop:
      set, and off the path to `n`, so marked before the call too. */
  lemma StopChild(m0: Bits.BitArray, n: Node, m: Bits.BitArray, stop: int, levels: nat) returns (c: Node)
    requires FreeMarks(m0, n, m, stop) && m0.count == Offset(levels)
    requires InTree(n, levels) && 0 <= stop
    ensures IsAncestorOrSelf(Ancestor(n, stop), c) && !Related(c, n)
    ensures InTree(c, levels) && Marked(m0, c)
  {
    var p := Ancestor(n, stop);
    AncestorInTree(n, stop);
    var k :| 0 <= k < 4 && Marked(m, Child(p, k));
    c := Child(p, k);
    FlatBound(c, levels);
    NodeAtFlat(c);
    if c == Ancestor(n, stop + 1) {
      assert false;
    }
    OffPath(n, c);
    OffPathBit(m0, n, m, stop, levels, c);
  }

  /** With the marks of `Free`, the bitset means occupancy by the records
      left live. */
  lemma OccupancyAfterFree(s: Sparse.SparseArray<SubAllocInfo>, m0: Bits.BitArray, levels: nat,
                           h: nat, m: Bits.BitArray, stop: int)
    requires FreeReady(s, m0, levels, h) && FreeMarks(m0, NodeOf(s.data[h]), m, stop)
    ensures Occupancy(m, Sparse.Free(s, h))
  {
    var s1 := Sparse.Free(s, h);
    var n := NodeOf(s.data[h]);
    forall i | 0 <= i < m.count
      ensures Bit(m, i) == Occupied(s1, NodeAt(i))
    {
      var x := NodeAt(i);
      if n.level <= x.level && IsAncestorOrSelf(n, x) {
        SubtreeFreed(s, h, x);
      } else if stop < x.level < n.level && IsAncestorOrSelf(x, n) {
        BandFreed(s, m0, levels, h, m, stop, x.level);
      } else if IsAncestorOrSelf(x, n) && x.level <= stop {
        RecordInTree(s, levels, h);
        AboveStillOccupied(s, m0, levels, h, m, stop, x);
        assert Live(s, h);
      } else {
        OccupiedAfterFree(s, h, x);
      }
    }
  }

  /** The records of a valid allocator name quads of its tree. */
  lemma InvRecordsInTree(a: RectAllocator)
    requires Inv(a)
    ensures RecordsInTree(a.subAllocs, |a.levelOffsets|)
  {
    forall g | 0 <= g < |a.subAllocs.data|
      ensures a.subAllocs.data[g].quadIdx < Offset(|a.levelOffsets|)
    {
      assert RecordOk(a, a.subAllocs.data[g]);
    }
  }

  /** Freeing a slot keeps the live allocations disjoint. */
  lemma DisjointAfterFree(s: Sparse.SparseArray<SubAllocInfo>, h: nat)
    requires Disjoint(s) && h < |s.data| && h / 32 < |s.flags.words|
    ensures Disjoint(Sparse.Free(s, h))
  {
    var s1 := Sparse.Free(s, h);
    forall g1, g2 | 0 <= g1 < |s1.data| && 0 <= g2 < |s1.data| && Live(s1, g1) && Live(s1, g2) && g1 != g2
      ensures !Related(NodeOf(s1.data[g1]), NodeOf(s1.data[g2]))
    {
      assert Live(s, g1) && Live(s, g2);
    }
  }

  /** The quad of a record of a valid allocator, as `Free` recovers it from
      the record's level and flat index. */
  lemma RecordRoot(a: RectAllocator, h: nat)
    requires Inv(a) && h < |a.subAllocs.data|
    ensures var info := a.subAllocs.data[h];
            && info.level < |a.levelOffsets|
            && a.levelOffsets[info.level] <= info.quadIdx
            && NodeOf(info) == Node(info.level, info.quadIdx - a.levelOffsets[info.level])
            && InTree(NodeOf(info), |a.levelOffsets|)
            && Flat(NodeOf(info)) == info.quadIdx
  {
    InvRecordsInTree(a);
    RecordInTree(a.subAllocs, |a.levelOffsets|, h);
    assert RecordOk(a, a.subAllocs.data[h]);
  }

  /** Freeing a live record with the marks of `Free` keeps the invariant. */
  lemma FreeKeepsInv(a: RectAllocator, h: nat, m: Bits.BitArray, stop: int)
    requires Inv(a) && Live(a.subAllocs, h)
    requires FreeMarks(a.marker, NodeOf(a.subAllocs.data[h]), m, stop)
    ensures Inv(a.(marker := m, subAllocs := Sparse.Free(a.subAllocs, h)))
  {
    DisjointAfterFree(a.subAllocs, h);
    InvRecordsInTree(a);
    OccupancyAfterFree(a.subAllocs, a.marker, |a.levelOffsets|, h, m, stop);
  }

  /** `Free`: releases the slot of `handle`, clears the quad's subtree, then
      clears each ancestor whose four children read clear, stopping at the
      first that has a set child (`stop`, or -1 past the root). A handle
      beyond the slot table makes the source's `GetData` throw (`ok` false,
      nothing changes). The source does not check that the handle is live:
      the bits change the same way for a freed handle, but only freeing a
      live one keeps the invariant. */
  method Free(a: RectAllocator, handle: nat) returns (r: RectAllocator, ok: bool, ghost stop: int)
    requires Inv(a)
    ensures ok <==> handle < |a.subAllocs.data|
    ensures !ok ==> r == a
    ensures r.tileSize == a.tileSize && r.borderSize == a.borderSize
    ensures r.dimInTiles == a.dimInTiles && r.levelOffsets == a.levelOffsets
    ensures ok ==>
              && r.subAllocs.data == a.subAllocs.data
              && r.subAllocs.freeSlots == a.subAllocs.freeSlots + [handle]
              && !Live(r.subAllocs, handle)
              && (forall g: nat | g != handle :: Live(r.subAllocs, g) == Live(a.subAllocs, g))
    ensures ok ==>
              var n := NodeOf(a.subAllocs.data[handle]);
              && -1 <= stop < n.level
              && !Marked(r.marker, n)
              && (forall i | 0 <= i < a.marker.count ::
                    Bit(r.marker, i) == (Bit(a.marker, i)
                                         && !(n.level <= NodeAt(i).level && IsAncestorOrSelf(n, NodeAt(i)))
                                         && !(stop < NodeAt(i).level < n.level && IsAncestorOrSelf(NodeAt(i), n))))
              && (forall j: nat | a.marker.count <= j :: Bit(r.marker, j) == Bit(a.marker, j))
              && FreeMarks(a.marker, n, r.marker, stop)
    ensures ok && Live(a.subAllocs, handle) ==> Inv(r)
  {
    if handle >= |a.subAllocs.data| {
      return a, false, -1;
    }
    ok := true;
    r, stop := Release(a, handle);
  }

  /** The body of `Free` for a handle inside the slot table. */
  method Release(a: RectAllocator, handle: nat) returns (r: RectAllocator, ghost stop: int)
    requires Inv(a) && handle < |a.subAllocs.data|
    ensures r.tileSize == a.tileSize && r.borderSize == a.borderSize
    ensures r.dimInTiles == a.dimInTiles && r.levelOffsets == a.levelOffsets
    ensures r.subAllocs == Sparse.Free(a.subAllocs, handle)
    ensures FreeMarks(a.marker, NodeOf(a.subAllocs.data[handle]), r.marker, stop)
    ensures !Marked(r.marker, NodeOf(a.subAllocs.data[handle]))
    ensures forall j: nat | a.marker.count <= j :: Bit(r.marker, j) == Bit(a.marker, j)
    ensures Live(a.subAllocs, handle) ==> Inv(r)
  {
    var info := Sparse.GetData(a.subAllocs, handle);
    var subs := Sparse.Free(a.subAllocs, handle);
    RecordRoot(a, handle);
    var level := info.level;
    var childIdxInLevel := info.quadIdx - a.levelOffsets[level];
    var n := Node(level, childIdxInLevel);
    var m;
    m, stop := UnmarkQuad(a.marker, a.levelOffsets, n);
    r := a.(marker := m, subAllocs := subs);
    if Live(a.subAllocs, handle) {
      FreeKeepsInv(a, handle, m, stop);
    }
  }

  /** Freeing what `Alloc` just placed gives back the bitset and the set of
      live handles the allocator had before. */
  method AllocThenFree(a: RectAllocator, sizeX: nat, sizeY: nat)
    returns (r: RectAllocator, res: AllocResult, ok: bool)
    requires Inv(a)
    requires sizeX < UintLimit && sizeY < UintLimit && a.tileSize < UintLimit
    requires a.subAllocs.flags.count < Bits.MaxCount
    ensures Inv(r)
    ensures !res.Allocated? ==> r == a
    ensures res.Allocated? ==> ok
    ensures r.marker == a.marker
    ensures forall g: nat :: Live(r.subAllocs, g) == Live(a.subAllocs, g)
  {
    var r1;
    r1, res := Alloc(a, sizeX, sizeY);
    if !res.Allocated? {
      return r1, res, false;
    }
    r, ok := FreeFresh(a, r1, res.handle);
  }

  /** The `Free` half of `AllocThenFree`: `b` is `a` with one more live
      record, at slot `h`. */
  method FreeFresh(a: RectAllocator, b: RectAllocator, h: nat) returns (r: RectAllocator, ok: bool)
    requires Inv(a) && Inv(b) && b.levelOffsets == a.levelOffsets
    requires Live(b.subAllocs, h) && !Live(a.subAllocs, h)
    requires forall g: nat | g != h :: Live(b.subAllocs, g) == Live(a.subAllocs, g)
    requires |a.subAllocs.data| <= |b.subAllocs.data|
    requires forall g | 0 <= g < |a.subAllocs.data| && g != h :: b.subAllocs.data[g] == a.subAllocs.data[g]
    requires forall j: nat | a.marker.count <= j :: Bit(b.marker, j) == Bit(a.marker, j)
    ensures ok && Inv(r) && r.marker == a.marker
    ensures forall g: nat :: Live(r.subAllocs, g) == Live(a.subAllocs, g)
  {
    ghost var stop;
    r, ok, stop := Free(b, h);
    SameLiveSameMarks(a, r);
  }

  /** Two valid allocators over the same tree whose live records agree have
      the same bitset, provided the padding bits agree too. */
  lemma SameLiveSameMarks(a: RectAllocator, b: RectAllocator)
    requires Inv(a) && Inv(b) && a.levelOffsets == b.levelOffsets
    requires forall g: nat :: Live(b.subAllocs, g) == Live(a.subAllocs, g)
    requires forall g: nat | Live(a.subAllocs, g) && Live(b.subAllocs, g) :: b.subAllocs.data[g] == a.subAllocs.data[g]
    requires forall j: nat | a.marker.count <= j :: Bit(b.marker, j) == Bit(a.marker, j)
    ensures b.marker == a.marker
  {
    forall x: Node
      ensures Occupied(a.subAllocs, x) == Occupied(b.subAllocs, x)
    {
      if Occupied(a.subAllocs, x) {
        var g :| 0 <= g < |a.subAllocs.data| && Live(a.subAllocs, g) && Related(x, NodeOf(a.subAllocs.data[g]));
        assert Live(b.subAllocs, g);
      }
      if Occupied(b.subAllocs, x) {
        var g :| 0 <= g < |b.subAllocs.data| && Live(b.subAllocs, g) && Related(x, NodeOf(b.subAllocs.data[g]));
        assert Live(a.subAllocs, g);
      }
    }
    forall j: nat | j / 32 < |a.marker.words|
      ensures Bits.Get(a.marker, j) == Bits.Get(b.marker, j)
    {
      assert Bit(a.marker, j) == Bit(b.marker, j);
    }
    Bits.Extensional(a.marker, b.marker);
  }

  /** A rectangle in texels: its size, then its top-left corner. */
  datatype Rect = Rect(sizeX: nat, sizeY: nat, posX: nat, posY: nat)

  /** A handle lookup: the rectangle, or the exception the source's
      `GetData` raises for an index beyond the slot table. */
  datatype Lookup = Found(rect: Rect) | OutOfRange

  /** `GetSizePosition`: the record's size and position in texels (the
      source's float `UVScaleBias` divided by `TexelSize`). Like the source
      it reads freed slots too. */
  function GetSizePosition(a: RectAllocator, handle: nat): (r: Lookup)
    ensures r.OutOfRange? <==> handle >= |a.subAllocs.data|
    ensures Inv(a) && r.Found? ==>
              var n := NodeOf(a.subAllocs.data[handle]);
              && r.rect.posX == TexelPos(a, TileX(a.dimInTiles, n))
              && r.rect.posY == TexelPos(a, TileY(a.dimInTiles, n))
  {
    if handle >= |a.subAllocs.data| then OutOfRange
    else
      var info := Sparse.GetData(a.subAllocs, handle);
      Found(Rect(info.sizeX, info.sizeY, info.posX, info.posY))
  }

  /** A square of at most `q * t` texels placed `b` texels inside a quad of
      `q >= 1` tiles of `unit = t + 2b` texels leaves at least `b` texels
      before the quad's far edge. */
  lemma InsetFits(q: nat, t: nat, b: nat, unit: nat, size: nat)
    requires q >= 1 && size <= q * t && unit == t + 2 * b
    ensures b + size + b <= q * unit
  {
    assert q * unit == q * t + 2 * (q * b);
    MulMono(1, q, b);
  }

  /** Scaling tile intervals that do not meet by a tile's texel width keeps
      them apart. */
  lemma ScaleApart(x1: nat, w1: nat, x2: nat, w2: nat, unit: nat)
    requires Apart(x1, w1, x2, w2)
    ensures Apart(x1 * unit, w1 * unit, x2 * unit, w2 * unit)
  {
    if x1 + w1 <= x2 {
      MulMono(x1 + w1, x2, unit);
      assert (x1 + w1) * unit == x1 * unit + w1 * unit;
    } else {
      MulMono(x2 + w2, x1, unit);
      assert (x2 + w2) * unit == x2 * unit + w2 * unit;
    }
  }

  /** The first texel of a quad's square along one axis and its width in
      texels. */
  function QuadStart(a: RectAllocator, tile: nat): nat {
    tile * TileSizeWithBorder(a)
  }

  function QuadWidth(a: RectAllocator, n: Node): nat {
    QuadSide(a.dimInTiles, n.level) * TileSizeWithBorder(a)
  }

  /** A recorded rectangle starts one border's width inside its quad's
      texel square and leaves at least a border's width before the far
      edges. */
  lemma RectInQuad(a: RectAllocator, handle: nat)
    requires Inv(a) && handle < |a.subAllocs.data|
    ensures var r := GetSizePosition(a, handle).rect;
            var n := NodeOf(a.subAllocs.data[handle]);
            && r.posX == QuadStart(a, TileX(a.dimInTiles, n)) + a.borderSize
            && r.posX + r.sizeX + a.borderSize <= QuadStart(a, TileX(a.dimInTiles, n)) + QuadWidth(a, n)
            && r.posY == QuadStart(a, TileY(a.dimInTiles, n)) + a.borderSize
            && r.posY + r.sizeY + a.borderSize <= QuadStart(a, TileY(a.dimInTiles, n)) + QuadWidth(a, n)
  {
    var info := a.subAllocs.data[handle];
    assert RecordOk(a, info);
    InvRecordsInTree(a);
    RecordInTree(a.subAllocs, |a.levelOffsets|, handle);
    RecordInQuad(a, info);
  }

  /** `Alloc` followed by `GetSizePosition` on the handle it returns: the
      lookup gives back the requested size, placed one border's width inside
      the first quad of the request's level that was free. */
  method AllocThenGet(a: RectAllocator, sizeX: nat, sizeY: nat) returns (r: RectAllocator, res: AllocResult, look: Lookup)
    requires Inv(a)
    requires sizeX < UintLimit && sizeY < UintLimit && a.tileSize < UintLimit
    requires a.subAllocs.flags.count < Bits.MaxCount
    ensures res.Allocated? <==> look.Found?
    ensures res.Allocated? ==> res.handle < |r.subAllocs.data|
    ensures res.Allocated? ==>
              var n := NodeOf(r.subAllocs.data[res.handle]);
              && n.level == RequestLevel(a, sizeX, sizeY)
              && (forall k | 0 <= k < n.idx :: Marked(a.marker, Node(n.level, k)))
              && look == Found(Rect(sizeX, sizeY, TexelPos(r, TileX(r.dimInTiles, n)), TexelPos(r, TileY(r.dimInTiles, n))))
  {
    r, res := Alloc(a, sizeX, sizeY);
    if res.Allocated? {
      look := GetSizePosition(r, res.handle);
    } else {
      look := OutOfRange;
    }
  }

  /** The same, for one record as `Alloc` writes it. */
  lemma RecordInQuad(a: RectAllocator, info: SubAllocInfo)
    requires 1 <= |a.levelOffsets| && a.dimInTiles == Pow2(|a.levelOffsets| - 1)
    requires RecordOk(a, info) && InTree(NodeOf(info), |a.levelOffsets|)
    ensures var n := NodeOf(info);
            && info.posX == QuadStart(a, TileX(a.dimInTiles, n)) + a.borderSize
            && info.posX + info.sizeX + a.borderSize <= QuadStart(a, TileX(a.dimInTiles, n)) + QuadWidth(a, n)
            && info.posY == QuadStart(a, TileY(a.dimInTiles, n)) + a.borderSize
            && info.posY + info.sizeY + a.borderSize <= QuadStart(a, TileY(a.dimInTiles, n)) + QuadWidth(a, n)
  {
    var n := NodeOf(info);
    var q := QuadSide(a.dimInTiles, n.level);
    var unit := TileSizeWithBorder(a);
    QuadSidePow(|a.levelOffsets| - 1, n.level);
    InsetFits(q, a.tileSize, a.borderSize, unit, info.sizeX);
    InsetFits(q, a.tileSize, a.borderSize, unit, info.sizeY);
    assert QuadWidth(a, n) == q * unit;
    assert info.posX == QuadStart(a, TileX(a.dimInTiles, n)) + a.borderSize;
    assert info.posY == QuadStart(a, TileY(a.dimInTiles, n)) + a.borderSize;
  }

  /** Every recorded rectangle, with its border, lies inside the
      `DimInTexels x DimInTexels` atlas. */
  lemma RectInDomain(a: RectAllocator, handle: nat)
    requires Inv(a) && handle < |a.subAllocs.data|
    ensures var r := GetSizePosition(a, handle).rect;
            && a.borderSize <= r.posX && r.posX + r.sizeX + a.borderSize <= DimInTexels(a)
            && a.borderSize <= r.posY && r.posY + r.sizeY + a.borderSize <= DimInTexels(a)
  {
    var info := a.subAllocs.data[handle];
    assert RecordOk(a, info);
    InvRecordsInTree(a);
    RecordInTree(a.subAllocs, |a.levelOffsets|, handle);
    RecordInQuad(a, info);
    RecordInDomain(a, info);
  }

  /** The quad of a record as `Alloc` writes it ends inside the atlas. */
  lemma RecordInDomain(a: RectAllocator, info: SubAllocInfo)
    requires 1 <= |a.levelOffsets| && a.dimInTiles == Pow2(|a.levelOffsets| - 1)
    requires InTree(NodeOf(info), |a.levelOffsets|)
    ensures var n := NodeOf(info);
            && QuadStart(a, TileX(a.dimInTiles, n)) + QuadWidth(a, n) <= DimInTexels(a)
            && QuadStart(a, TileY(a.dimInTiles, n)) + QuadWidth(a, n) <= DimInTexels(a)
  {
    var n := NodeOf(info);
    var top := |a.levelOffsets| - 1;
    var dim := a.dimInTiles;
    InDomain(top, n);
    var side := QuadSide(dim, n.level);
    var unit := TileSizeWithBorder(a);
    assert TileX(dim, n) + side <= dim;
    assert TileY(dim, n) + side <= dim;
    EndWithin(TileX(dim, n), side, dim, unit);
    EndWithin(TileY(dim, n), side, dim, unit);
  }

  lemma EndWithin(tile: nat, side: nat, dim: nat, unit: nat)
    requires tile + side <= dim
    ensures tile * unit + side * unit <= dim * unit
  {
    MulMono(tile + side, dim, unit);
    assert (tile + side) * unit == tile * unit + side * unit;
  }

  /** Rectangles of two different live handles do not overlap: along one
      axis at least two borders separate them. */
  lemma LiveRectsDisjoint(a: RectAllocator, h1: nat, h2: nat)
    requires Inv(a) && Live(a.subAllocs, h1) && Live(a.subAllocs, h2) && h1 != h2
    ensures var r1 := GetSizePosition(a, h1).rect;
            var r2 := GetSizePosition(a, h2).rect;
            || r1.posX + r1.sizeX + 2 * a.borderSize <= r2.posX
            || r2.posX + r2.sizeX + 2 * a.borderSize <= r1.posX
            || r1.posY + r1.sizeY + 2 * a.borderSize <= r2.posY
            || r2.posY + r2.sizeY + 2 * a.borderSize <= r1.posY
  {
    var n1 := NodeOf(a.subAllocs.data[h1]);
    var n2 := NodeOf(a.subAllocs.data[h2]);
    var top := |a.levelOffsets| - 1;
    var unit := TileSizeWithBorder(a);
    RectInQuad(a, h1);
    RectInQuad(a, h2);
    InvRecordsInTree(a);
    RecordInTree(a.subAllocs, |a.levelOffsets|, h1);
    RecordInTree(a.subAllocs, |a.levelOffsets|, h2);
    UnrelatedApart(top, n1, n2);
    var s1 := QuadSide(a.dimInTiles, n1.level);
    var s2 := QuadSide(a.dimInTiles, n2.level);
    if Apart(TileX(a.dimInTiles, n1), s1, TileX(a.dimInTiles, n2), s2) {
      ScaleApart(TileX(a.dimInTiles, n1), s1, TileX(a.dimInTiles, n2), s2, unit);
    } else {
      ScaleApart(TileY(a.dimInTiles, n1), s1, TileY(a.dimInTiles, n2), s2, unit);
    }
  }
}

=== FILE: sparse_array.dfy ===
/** A slot table (GPUScene.SparseArray<T>): a dense list of values, a
    liveness bit per slot, and a free list that `Add` pops from the back. */
module Sparse {
  import Bits

  datatype SparseArray<T> = SparseArray(freeSlots: seq<nat>, data: seq<T>, flags: Bits.BitArray)

  function Empty<T>(): SparseArray<T> {
    SparseArray([], [], Bits.Empty)
  }

  /** Slot `h` holds a value that has not been freed. */
  predicate IsLive<T>(s: SparseArray<T>, h: nat) {
    h < s.flags.count && h / 32 < |s.flags.words| && Bits.Get(s.flags, h)
  }

  /** What the table keeps true between calls: one flag per value, and the
      free list holds each non-live slot exactly once. */
  predicate Valid<T>(s: SparseArray<T>) {
    && Bits.Valid(s.flags)
    && |s.data| == s.flags.count
    && (forall i, j | 0 <= i < j < |s.freeSlots| :: s.freeSlots[i] != s.freeSlots[j])
    && (forall i | 0 <= i < |s.freeSlots| :: s.freeSlots[i] < s.flags.count)
    && (forall h: nat | h < s.flags.count :: !IsLive(s, h) <==> h in s.freeSlots)
  }

  /** What the source needs to complete `Add`: the popped slot's flag word
      exists, and a fresh slot index still fits in 32 bits. */
  predicate CanAdd<T>(s: SparseArray<T>) {
    && Bits.Valid(s.flags)
    && (|s.freeSlots| > 0 ==> s.freeSlots[|s.freeSlots| - 1] / 32 < |s.flags.words|)
    && (|s.freeSlots| == 0 ==> s.flags.count < Bits.MaxCount)
  }

  /** `Add`: reuses the most recently freed slot, or appends a new one. */
  function Add<T>(s: SparseArray<T>, value: T): (r: (SparseArray<T>, nat))
    requires CanAdd(s)
    ensures |s.freeSlots| > 0 ==>
              && r.1 == s.freeSlots[|s.freeSlots| - 1]
              && r.0.freeSlots == s.freeSlots[..|s.freeSlots| - 1]
              && r.0.flags.count == s.flags.count
    ensures |s.freeSlots| == 0 ==>
              && r.1 == s.flags.count
              && r.0.freeSlots == []
              && r.0.flags.count == s.flags.count + 1
    ensures r.1 / 32 < |r.0.flags.words| && Bits.Get(r.0.flags, r.1)
    ensures forall h: nat | h != r.1 :: IsLive(r.0, h) == IsLive(s, h)
    ensures Valid(s) ==>
              && Valid(r.0)
              && IsLive(r.0, r.1)
              && !IsLive(s, r.1)
              && r.0.data[r.1] == value
              && (forall h | 0 <= h < |s.data| && h != r.1 :: r.0.data[h] == s.data[h])
  {
    var (flags, handle) :=
      if |s.freeSlots| > 0 then
        (Bits.Set(s.flags, s.freeSlots[|s.freeSlots| - 1], true), s.freeSlots[|s.freeSlots| - 1])
      else
        Bits.Add(s.flags, true);
    var freeSlots := if |s.freeSlots| > 0 then s.freeSlots[..|s.freeSlots| - 1] else s.freeSlots;
    var data := if handle >= |s.data| then s.data + [value] else s.data[handle := value];
    (SparseArray(freeSlots, data, flags), handle)
  }

  /** `Free`: clears the liveness flag and pushes the slot on the free list.
      It does not check that `h` is live. */
  function Free<T>(s: SparseArray<T>, h: nat): (r: SparseArray<T>)
    requires h / 32 < |s.flags.words|
    ensures r.data == s.data && r.flags.count == s.flags.count
    ensures r.freeSlots == s.freeSlots + [h]
    ensures !IsLive(r, h)
    ensures forall g: nat | g != h :: IsLive(r, g) == IsLive(s, g)
    ensures Valid(s) && IsLive(s, h) ==> Valid(r)
  {
    SparseArray(s.freeSlots + [h], s.data, Bits.Set(s.flags, h, false))
  }

  /** `GetData`: a plain index read, whether or not the slot is live. */
  function GetData<T>(s: SparseArray<T>, h: nat): T
    requires h < |s.data|
  {
    s.data[h]
  }

  /** What `GetData` reads after the other operations: `Add` makes its
      handle read the new value and leaves every other slot's value alone;
      `Free` leaves every value readable as it was, the freed slot's too. */
  lemma GetDataAfter<T>(s: SparseArray<T>, value: T, g: nat, h: nat)
    requires Valid(s) && CanAdd(s) && h / 32 < |s.flags.words|
    ensures var (s1, k) := Add(s, value);
            && k < |s1.data| && GetData(s1, k) == value
            && (g < |s.data| && g != k ==> GetData(s1, g) == GetData(s, g))
    ensures g < |s.data| ==> GetData(Free(s, h), g) == GetData(s, g)
  {
  }

  /** Freeing a slot and adding again hands the same slot back (LIFO reuse). */
  lemma FreeThenAddReuses<T>(s: SparseArray<T>, h: nat, value: T)
    requires Valid(s) && IsLive(s, h)
    ensures CanAdd(Free(s, h))
    ensures Add(Free(s, h), value).1 == h
    ensures GetData(Add(Free(s, h), value).0, h) == value
  {
  }

  /** Without a liveness check, freeing a slot twice puts it on the free list
      twice, which breaks the table's invariant. */
  lemma DoubleFreeBreaksValid<T>(s: SparseArray<T>, h: nat)
    requires Valid(s) && IsLive(s, h)
    ensures !Valid(Free(Free(s, h), h))
  {
    var r := Free(Free(s, h), h);
    assert r.freeSlots[|r.freeSlots| - 2] == r.freeSlots[|r.freeSlots| - 1];
  }
}
